=== FILE: README.md ===
# WishCrate shop core in Dafny

A model of the service layer behind the WishCrate online store: the shopping
cart (`CartService`), checkout and order handling (`OrderService`) and the
product catalogue (`ProductService`), together with proofs about how they
move stock, money and cart contents.

The store's database is one immutable value, `Shop`. It holds:

- products by id;
- category names by id;
- each user's cart, as a list of cart lines;
- orders by id;
- the next id each identity column would hand out.

Every operation is a pure function. It takes the store and the caller's
user id, and returns a `Reply`: the new store plus either a result or an
`Error`. Every operation that writes more than one row runs in a single
transaction, so when it fails the returned store is exactly the one it was
given. In `createOrder`, for example, the stock taken for earlier cart lines
is given back when a later line fails. `getCart`, `getProductById` and
`getOrderById` are not transactional; the only write among them is the
single save of a new empty cart in `getCart`.

Money is `real`, because `BigDecimal` arithmetic is exact. The 10% tax is
exactly one tenth, and flat-rate shipping is 10. The clock (`now`, in
seconds) and the order number are parameters.

Files:

- `wrappers.dfy`: `Option` and `Result`.
- `entities.dfy`: products, categories, cart lines, orders, the order and
  payment enums, the shipping address, errors and the `Shop` itself, plus
  the quantity and value sums over cart lines.
- `cart_service.dfy`: `getCart`, `addToCart`, `updateCartItem`,
  `removeFromCart`, `clearCart` and the cart DTO conversion.
- `order_service.dfy`: `createOrder`, including the shipping address, the
  line-by-line stock check and the totals. Also `getOrderById`,
  `updateOrderStatus` and `cancelOrder`.
- `product_service.dfy`: `getProductById`, `createProduct`,
  `updateProduct`, `deleteProduct` and the product DTO conversion.
- `shop_properties.dfy`: properties that span several operations. These
  include checkout followed by cancellation, adding the same product twice,
  what checkout charges, and cart lines that always name a stored product.
- `freshness.dfy`: the identity counters stay ahead of every stored id, and
  line ids stay distinct within a cart, so no operation overwrites an
  existing order or product and removing a line drops exactly one line.
- `stock_safety.dfy`: whole sequences of requests, and the finding below.

## Model

| member | source | states |
|---|---|---|
| CartService.FindByProduct | backend/src/main/java/com/wishcrate/service/CartService.java:67-71 | finds the first cart line for the product. It returns none exactly when no line holds that product. |
| CartService.FindById | backend/src/main/java/com/wishcrate/service/CartService.java:98-101 | finds the first cart line with the given id. It returns none exactly when no line has that id. |
| CartService.MergeInto | backend/src/main/java/com/wishcrate/service/CartService.java:67-86 | merges an addition into a cart. If the product already has a line, only that line's quantity grows, by `qty`. Otherwise one new line is appended, with the fresh id and the unit price. The product's quantity in the cart and the cart's unit count both rise by `qty`. Every other product's quantity is unchanged. |
| CartService.Without | backend/src/main/java/com/wishcrate/service/CartService.java:122 | a line is kept exactly when its id differs from the given id, and the cart is unchanged when no line has that id. How many copies are kept, and in what order, is stated by `WithoutKeepsCopies`. |
| CartService.WithoutKeepsCopies | backend/src/main/java/com/wishcrate/service/CartService.java:122 | removing by id keeps every copy of every line with another id, keeps no copy of a line with that id, and keeps the remaining lines in their original order. |
| CartService.ItemView | backend/src/main/java/com/wishcrate/service/CartService.java:157-169 | a line's DTO exists exactly when its product is stored. It shows the line's id, product, name, price and quantity, with subtotal price × quantity. The image is absent when the product has no images, and otherwise is the first image. |
| CartService.ItemViews | backend/src/main/java/com/wishcrate/service/CartService.java:137-139 | the item DTOs come out one per line and in cart order, each showing its line's id, product, price, quantity and subtotal, and its product's name and first image (absent when there is none). It succeeds exactly when every line's product is stored. |
| CartService.SumsOfViews | backend/src/main/java/com/wishcrate/service/CartService.java:141-147 | the sum of the item subtotals is the cart's value. The sum of the item quantities is its unit count. |
| CartService.View | backend/src/main/java/com/wishcrate/service/CartService.java:136-155 | it fails exactly when a line's product is missing. Otherwise it shows one item per line, in order, each with its line's fields and its product's name and first image. `totalAmount` is the sum of price × quantity over the lines, and `totalItems` is the sum of the quantities. An empty cart shows no items, a total of 0 and 0 units. |
| CartService.GetCart | backend/src/main/java/com/wishcrate/service/CartService.java:41-49 | a missing cart is created empty, and nothing else changes. The result is exactly the DTO conversion of the caller's lines over the stored products, with total = value of the lines and items = their unit count. |
| CartService.AddToCart | backend/src/main/java/com/wishcrate/service/CartService.java:51-90 | it fails with product not found, or with insufficient stock exactly when stock < `qty`, and then changes nothing. On success only the caller's cart and the line-id counter change, and the merge facts of `MergeInto` hold. The counter advances only when a new line is added. |
| CartService.AddToCartChecked | backend/src/main/java/com/wishcrate/service/CartService.java:63-65 | the corrected add. It refuses a quantity ≤ 0 and changes nothing. Otherwise it behaves exactly as `AddToCart`. |
| CartService.UpdateCartItem | backend/src/main/java/com/wishcrate/service/CartService.java:92-114 | it fails with cart not found or cart item not found. A quantity ≤ 0 removes that line and keeps the others in order. Otherwise it fails with insufficient stock exactly when stock < quantity, or sets that line's quantity and nothing else. The totals follow. |
| CartService.RemoveFromCart | backend/src/main/java/com/wishcrate/service/CartService.java:116-124 | it fails with cart not found and changes nothing. Otherwise only the caller's cart changes: a line stays exactly when its id differs, and the cart is unchanged when no line has that id. |
| CartService.RemoveKeepsOtherLines | backend/src/main/java/com/wishcrate/service/CartService.java:116-124 | after a removal the caller's cart holds every copy of every line with another id, in the original order. |
| CartService.ClearCart | backend/src/main/java/com/wishcrate/service/CartService.java:126-134 | it fails with cart not found. Otherwise the caller's cart becomes empty and nothing else changes. |
| OrderService.ShippingFrom | backend/src/main/java/com/wishcrate/service/OrderService.java:66-75 | each of the eight address fields is the submitted value under its key, or the empty string when the key is absent. |
| OrderService.ShippingRoundTrip | backend/src/main/java/com/wishcrate/service/OrderService.java:67-75 | writing an address out under the eight keys and reading it back gives the same address. |
| OrderService.ItemsOf | backend/src/main/java/com/wishcrate/service/OrderService.java:88-97 | one order item per cart line, in cart order. Each item has the line's product, quantity and price, and subtotal price × quantity. |
| OrderService.Reserve | backend/src/main/java/com/wishcrate/service/OrderService.java:78-102 | the pass over the cart succeeds exactly when every line's quantity is within the stock left after the earlier lines. Otherwise it reports the first line that fails, with its error. On success each product's stock drops by its total quantity in the cart, the items are the cart's lines, and the subtotal is the cart's value. |
| OrderService.Restock | backend/src/main/java/com/wishcrate/service/OrderService.java:188-193 | it succeeds exactly when every item's product is stored. Each product's stock then rises by its total quantity among the items. |
| OrderService.CreateOrder | backend/src/main/java/com/wishcrate/service/OrderService.java:56-138 | It fails, leaving the store unchanged, when the cart is missing, when the cart is empty, or at the first line whose stock check fails. On success: the stock drops as in `Reserve` (stock that was nonnegative stays nonnegative); the cart is emptied; one order is stored under the next id, holding the cart's items and subtotal; tax is subtotal/10, shipping is 10, and total = subtotal + tax + shipping; the status is pending and the payment is pending; billing = shipping = the submitted address; delivery is estimated at now + 7 days. |
| OrderService.GetOrderById | backend/src/main/java/com/wishcrate/service/OrderService.java:145-155 | it fails with order not found exactly when the id is not stored, and with unauthorised access exactly when the caller is not the owner. It succeeds exactly when the caller owns the stored order, and then returns that order. |
| OrderService.UpdateOrderStatus | backend/src/main/java/com/wishcrate/service/OrderService.java:157-169 | it fails with order not found. Otherwise only the status changes, plus the delivered date, which is set to now exactly when the new status is Delivered. Any caller may do this. |
| OrderService.CancelOrder | backend/src/main/java/com/wishcrate/service/OrderService.java:171-196 | it fails with order not found, with unauthorised access, or with cannot cancel exactly when the status is neither Pending nor Confirmed. On success the status becomes Cancelled and each product's stock rises by the order's quantity of it. |
| ProductService.ToDto | backend/src/main/java/com/wishcrate/service/ProductService.java:119-138 | the DTO carries the product's editable fields, its rating, review count and active flag. Category id and name are present exactly when the product has a category. The image URL is never set. |
| ProductService.GetProductById | backend/src/main/java/com/wishcrate/service/ProductService.java:55-59 | it fails with product not found exactly when the id is not stored. Otherwise it returns the DTO conversion of the stored product under that id. |
| ProductService.FindCategory | backend/src/main/java/com/wishcrate/service/ProductService.java:63-64 | a missing category id is an error, and so is an id that names no category. A stored id returns the category with that id and its stored name. |
| ProductService.CreateProduct | backend/src/main/java/com/wishcrate/service/ProductService.java:61-83 | it fails on the category and then changes nothing. Otherwise it stores, under the next product id, an active product with the submitted fields, the found category, rating 0, no reviews and no image URL. Every other product is unchanged. |
| ProductService.UpdateProduct | backend/src/main/java/com/wishcrate/service/ProductService.java:85-109 | it fails with product not found exactly when the id is not stored, or, for a stored product, with category not found exactly when a given category id is not stored, before any write. It succeeds exactly when the product is stored and the category, if given, exists. It overwrites the ten editable fields. When a category id is given, the product gets that stored category, with its id and name; otherwise the category is kept. The active flag, rating, reviews and image URL are kept. |
| ProductService.DeleteProduct | backend/src/main/java/com/wishcrate/service/ProductService.java:111-117 | it fails with product not found. Otherwise it only clears the product's active flag, and the product stays stored. |
| ProductService.CreateThenGet | backend/src/main/java/com/wishcrate/service/ProductService.java:55-83 | reading back a product just created succeeds. It shows the stored product's editable fields, the active flag, and the submitted category id. |
| ProductService.DeleteIdempotent | backend/src/main/java/com/wishcrate/service/ProductService.java:111-117 | deleting a second time gives the same reply and store as deleting once. |
| ProductService.UpdateIdempotent | backend/src/main/java/com/wishcrate/service/ProductService.java:85-109 | applying a successful update a second time gives the same reply and store as applying it once. |
| ShopProperties.ItemQuantitiesMatchLines | backend/src/main/java/com/wishcrate/service/OrderService.java:91-97 | the order items hold, per product, the same total quantity as the cart lines they came from. |
| ShopProperties.RestockUndoesTake | backend/src/main/java/com/wishcrate/service/OrderService.java:188-193 | giving back the items' quantities restores exactly the stock that taking the lines removed. |
| ShopProperties.CancelRestoresTakenStock | backend/src/main/java/com/wishcrate/service/OrderService.java:171-196 | cancelling an order whose items came from cart lines succeeds, and restores every product to its stock from before those lines were taken. |
| ShopProperties.CancelUndoesCheckout | backend/src/main/java/com/wishcrate/service/OrderService.java:186-193 | cancelling the order that checkout just placed succeeds and puts every product back exactly as it was. |
| ShopProperties.CancelIsOneShot | backend/src/main/java/com/wishcrate/service/OrderService.java:181-186 | a second cancellation straight after the first fails with cannot cancel and changes nothing. A status change in between can reopen the order, as `ReopenRestocksTwice` shows. |
| ShopProperties.ReopenRestocksTwice | backend/src/main/java/com/wishcrate/service/OrderService.java:157-193 | setting a cancelled order back to Pending makes it cancellable again, and the second cancellation gives every product its order quantity back once more, so stock rises by twice that quantity. |
| ShopProperties.PlacedOrderReadsBack | backend/src/main/java/com/wishcrate/service/OrderService.java:145-155 | the order checkout just placed reads back, under the next order id, to its owner as the placed order, and to any other caller as unauthorised access. |
| ShopProperties.AddTwiceMerges | backend/src/main/java/com/wishcrate/service/CartService.java:67-86 | adding the same new product twice gives one line, holding the sum of both quantities. |
| ShopProperties.UpdateCartItemSucceeds | backend/src/main/java/com/wishcrate/service/CartService.java:92-114 | while every cart line names a stored product, updating succeeds exactly when the caller's cart holds the line and the quantity is ≤ 0 (a removal) or within the product's stock. |
| ShopProperties.AddToCartKeepsReferences | backend/src/main/java/com/wishcrate/service/CartService.java:60-86 | while every cart line names a stored product, adding succeeds exactly when the product is stored and `qty` ≤ its stock, and every line still names a stored product afterwards. |
| ShopProperties.CreateOrderKeepsReferences | backend/src/main/java/com/wishcrate/service/OrderService.java:133-135 | checkout keeps every cart line naming a stored product. |
| ShopProperties.CheckoutChargesCartTotal | backend/src/main/java/com/wishcrate/service/OrderService.java:88-106 | the order's subtotal is the total the cart showed its owner, and the amount due is that total × 1.1 + 10. |
| ShopProperties.CheckoutExample | backend/src/main/java/com/wishcrate/service/OrderService.java:104-106 | two units at 20.00 give a subtotal of 40, tax of 4, shipping of 10 and a total of 54. They leave 3 of 5 in stock and an empty cart. |
| StockSafety.PositiveItemsAddUp | backend/src/main/java/com/wishcrate/service/OrderService.java:189-193 | order items that all have positive quantities add up to a nonnegative quantity of every product, so cancelling their order never lowers a stock. |
| StockSafety.AddKeepsSafe | backend/src/main/java/com/wishcrate/service/CartService.java:63-86 | the corrected add keeps all stock nonnegative and all quantities positive. |
| StockSafety.UpdateKeepsSafe | backend/src/main/java/com/wishcrate/service/CartService.java:103-110 | updating a cart line keeps all stock nonnegative and all quantities positive. |
| StockSafety.RemoveKeepsSafe | backend/src/main/java/com/wishcrate/service/CartService.java:122 | removing a cart line keeps all stock nonnegative and all quantities positive. |
| StockSafety.CheckoutKeepsSafe | backend/src/main/java/com/wishcrate/service/OrderService.java:81-102 | checkout keeps all stock nonnegative and all quantities positive. |
| StockSafety.CancelKeepsSafe | backend/src/main/java/com/wishcrate/service/OrderService.java:186-193 | cancellation keeps all stock nonnegative and all quantities positive. |
| StockSafety.SetStatusKeepsSafe | backend/src/main/java/com/wishcrate/service/OrderService.java:157-169 | a status change keeps all stock nonnegative and all quantities positive. |
| StockSafety.StepKeepsSafe | backend/src/main/java/com/wishcrate/service/CartService.java:63-65 | once adding requires a positive quantity, every cart request (including `getCart`), every order request and product deletion keeps the store stock-safe. |
| StockSafety.RunKeepsSafe | backend/src/main/java/com/wishcrate/service/CartService.java:63-65 | once adding requires a positive quantity, no sequence of those requests ever makes a stock negative. |
| StockSafety.AddToEmptyCart | backend/src/main/java/com/wishcrate/service/CartService.java:75-86 | adding to an empty cart, when the stock check passes, gives exactly one new line at the unit price. |
| StockSafety.CheckoutOneLine | backend/src/main/java/com/wishcrate/service/OrderService.java:81-102 | checking out a one-line cart takes that line's quantity from its product's stock and stores one pending order holding that line. |
| StockSafety.CheckoutMoves | backend/src/main/java/com/wishcrate/service/OrderService.java:81-135 | checking out a line just added to an empty cart moves its quantity from stock into a new order and empties the cart again. |
| StockSafety.AddThenCheckout | backend/src/main/java/com/wishcrate/service/CartService.java:63-65 | as written, adding `qty` (of any sign) to an empty cart and checking out moves exactly `qty` units out of stock. |
| StockSafety.CancelAfterTwoCheckouts | backend/src/main/java/com/wishcrate/service/OrderService.java:189-193 | start with a product at stock 0. Place an order for −5 of it, then an order for 5. Cancelling the first order then leaves the stock at −5. |
| StockSafety.NegativeQuantityDrivesStockNegative | backend/src/main/java/com/wishcrate/service/CartService.java:63-65 | as written, five requests by one user take a product's stock from 0 to 5, then to 0, then to −5. |
| StockSafety.NegativeStockExample | backend/src/main/java/com/wishcrate/service/CartService.java:63-65 | the same five requests applied to a concrete one-product store. |
| Freshness.DropKeepsIds | backend/src/main/java/com/wishcrate/service/CartService.java:103-104 | dropping one line keeps every remaining line id below the counter and all of them distinct. |
| Freshness.WithoutDropsOne | backend/src/main/java/com/wishcrate/service/CartService.java:122 | when exactly one line has the id, removing by id drops that line and keeps the rest in order. |
| Freshness.OnlyLineWithId | backend/src/main/java/com/wishcrate/service/CartService.java:98-101 | in a cart whose line ids are distinct, the line the id lookup finds is the only one with that id. |
| Freshness.RemoveDropsOneLine | backend/src/main/java/com/wishcrate/service/CartService.java:116-124 | with fresh ids, removing an existing line drops exactly that one line and keeps the others in order. |
| Freshness.RemoveAgreesWithZeroUpdate | backend/src/main/java/com/wishcrate/service/CartService.java:103-104 | with fresh ids and every line naming a stored product, setting a line's quantity to 0 succeeds and leaves the same store as removing it. |
| Freshness.AddToCartKeepsFresh | backend/src/main/java/com/wishcrate/service/CartService.java:75-86 | adding keeps every stored id below its counter and line ids distinct in every cart. |
| Freshness.UpdateCartItemKeepsFresh | backend/src/main/java/com/wishcrate/service/CartService.java:92-114 | updating a line keeps every stored id below its counter and line ids distinct in every cart. |
| Freshness.RemoveFromCartKeepsFresh | backend/src/main/java/com/wishcrate/service/CartService.java:116-124 | removing a line keeps every stored id below its counter and line ids distinct in every cart. |
| Freshness.CreateOrderKeepsFresh | backend/src/main/java/com/wishcrate/service/OrderService.java:104-135 | checkout keeps every stored id below its counter and line ids distinct in every cart. |
| Freshness.GetCartKeepsFresh | backend/src/main/java/com/wishcrate/service/CartService.java:41-49 | reading a cart, which may create an empty one, keeps every stored id below its counter and line ids distinct in every cart. |
| Freshness.ClearCartKeepsFresh | backend/src/main/java/com/wishcrate/service/CartService.java:126-134 | clearing a cart keeps the keys fresh. |
| Freshness.UpdateOrderStatusKeepsFresh | backend/src/main/java/com/wishcrate/service/OrderService.java:157-169 | a status change keeps the keys fresh. |
| Freshness.CancelOrderKeepsFresh | backend/src/main/java/com/wishcrate/service/OrderService.java:171-196 | cancellation keeps the keys fresh. |
| Freshness.CreateProductKeepsFresh | backend/src/main/java/com/wishcrate/service/ProductService.java:61-83 | creating a product keeps the keys fresh. |
| Freshness.UpdateProductKeepsFresh | backend/src/main/java/com/wishcrate/service/ProductService.java:85-109 | updating a product keeps the keys fresh. |
| Freshness.DeleteProductKeepsFresh | backend/src/main/java/com/wishcrate/service/ProductService.java:111-117 | deleting a product keeps the keys fresh. |
| Freshness.StepKeepsFresh | backend/src/main/java/com/wishcrate/service/CartService.java:41-134 | every cart request, every order request that writes, and product deletion keep the keys fresh. This holds both when adding is served as written, accepting any quantity, and with the corrected add. |
| Freshness.RunKeepsFresh | backend/src/main/java/com/wishcrate/service/OrderService.java:123-124 | no sequence of those requests, served as written or with the corrected add, makes checkout or line creation reuse a key already in use. |
| StockSafety.StepDiffersOnlyOnNonPositiveAdds | backend/src/main/java/com/wishcrate/service/CartService.java:63-65 | the corrected step leaves the store unchanged on an add of zero or less, and serves every other request exactly as the program does. |
| Freshness.CreateOrderKeepsEarlierOrders | backend/src/main/java/com/wishcrate/service/OrderService.java:123-124 | with fresh ids, checkout stores its order under an id no order had, and every earlier order is kept unchanged. |
| Freshness.CreateProductKeepsEarlierProducts | backend/src/main/java/com/wishcrate/service/ProductService.java:61-83 | with fresh ids, creating a product uses an id no product had, and every earlier product is kept unchanged. |

## Left out

- The caller's identity. `getCurrentUser` (the security context, and the "User not found" error) is replaced by an explicit user id parameter.
- Concurrency. Two checkouts running at the same time can each pass the stock check; the model runs requests one at a time.
- Java `Integer` overflow. Quantities and stock are unbounded integers here.
- `generateOrderNumber` and `LocalDateTime.now()`. Both read the clock or randomness, so the order number and `now` are parameters.
- Database ids that nothing reads: the cart's own id (`CartDTO.id`), the ids of order items, and `createdAt`/`updatedAt`.
- Nullable fields. Fields the source may leave null are plain values here, except the ones whose absence the core checks or sets: the discount price, the category, the image URL, the transaction id, the tracking number and the dates. Those are `Option`s.
- Lazy loading. Order items and cart lines refer to products by id. A reference to a missing product, which foreign keys rule out, yields product not found.
- `getUserOrders`, with its paging, and the read-only catalogue queries (`getAllProducts`, `getProductsByCategory`, `searchProducts`, `getProductsByPriceRange`, `getFeaturedProducts`). They are repository queries with no logic of their own.
- The controllers, repositories, authentication, administration, categories, addresses, reviews, wishlists and the frontend.
- CartService.AddToCart: it is modelled as written, accepting any quantity that does not exceed the stock. The finding below shows what that allows.
- StockSafety.RunKeepsSafe: the requests it covers are the five cart requests, the three order requests that write, and `deleteProduct`. `createProduct` and `updateProduct` store whatever stock an administrator submits, which the source does not check either, so they are not among them.
- Cart line order. `Cart.items` (Cart.java:25-26) has no order column, so the database may return a cart's lines in any order. The model keeps them in the order they were added. That order decides the order of the order items and, when several lines lack stock, which product the "Insufficient stock for product" error of `createOrder` names (OrderService.java:81-86).
- Freshness.FreshIds: line ids are stated distinct within each cart, not across carts. The shared counter makes them distinct across carts as well, but no operation depends on that.
- ProductService.ToDto: `convertToDTO` never copies the product's `imageUrl`, so the DTO's image URL is always absent. The model follows the code.

## Findings

| source | as written | input that shows it | evidently intended | confidence | as-written member | corrected member |
|---|---|---|---|---|---|---|
| backend/src/main/java/com/wishcrate/service/CartService.java:63-65 | `addToCart` rejects a quantity only when it exceeds the stock, so zero and negative quantities are accepted. Checkout then raises stock by a negative line, and cancelling that order lowers it again. | One user, product stock 0. Add −5 and check out: stock 5, order A. Add 5 and check out: stock 0, order B. Cancel A: stock −5. | Only a positive quantity can be added. Stock then never goes negative, whatever sequence of requests is served. | high (not executed) | StockSafety.NegativeQuantityDrivesStockNegative | StockSafety.RunKeepsSafe |

=== FILE: cart_service.dfy ===
/**
 The shopping cart of the calling user: reading it (creating it on first use),
 adding a product, changing or removing a line, emptying it, and the totals
 shown with it.
 */
module CartService {
  import opened Wrappers
  import opened Entities

  datatype CartItemDto = CartItemDto(
    id: CartItemId,
    productId: ProductId,
    productName: string,
    productImage: Option<string>,
    price: Money,
    quantity: int,
    subtotal: Money)

  datatype CartDto = CartDto(items: seq<CartItemDto>, totalAmount: Money, totalItems: int)

  /** The position of the first line for product `pid`, if any. */
  function FindByProduct(lines: seq<CartLine>, pid: ProductId): (r: Option<nat>)
    ensures r.None? <==> forall i :: 0 <= i < |lines| ==> lines[i].productId != pid
    ensures r.Some? ==> r.value < |lines| && lines[r.value].productId == pid
    ensures r.Some? ==> forall j :: 0 <= j < r.value ==> lines[j].productId != pid
  {
    if lines == [] then None
    else if lines[0].productId == pid then Some(0)
    else match FindByProduct(lines[1..], pid)
      case None => None
      case Some(i) => Some(i + 1)
  }

  /** The position of the first line with key `itemId`, if any. */
  function FindById(lines: seq<CartLine>, itemId: CartItemId): (r: Option<nat>)
    ensures r.None? <==> forall i :: 0 <= i < |lines| ==> lines[i].id != itemId
    ensures r.Some? ==> r.value < |lines| && lines[r.value].id == itemId
    ensures r.Some? ==> forall j :: 0 <= j < r.value ==> lines[j].id != itemId
  {
    if lines == [] then None
    else if lines[0].id == itemId then Some(0)
    else match FindById(lines[1..], itemId)
      case None => None
      case Some(i) => Some(i + 1)
  }

  /** The unit price a new cart line captures: the discount price when there is one. */
  function UnitPrice(p: Product): Money
  {
    if p.discountPrice.Some? then p.discountPrice.value else p.price
  }

  /**
   Puts `qty` more units of product `pid` into the cart: into the first line
   already holding that product, or else into one new line at the end.
   */
  function MergeInto(lines: seq<CartLine>, pid: ProductId, price: Money, qty: int, freshId: CartItemId)
    : (r: seq<CartLine>)
    ensures FindByProduct(lines, pid).Some? ==>
              var i := FindByProduct(lines, pid).value;
              && |r| == |lines|
              && r[i] == lines[i].(quantity := lines[i].quantity + qty)
              && (forall j :: 0 <= j < |lines| && j != i ==> r[j] == lines[j])
    ensures FindByProduct(lines, pid).None? ==> r == lines + [CartLine(freshId, pid, qty, price)]
    ensures UnitCount(r) == UnitCount(lines) + qty
    ensures QuantityOf(r, pid) == QuantityOf(lines, pid) + qty
    ensures forall q :: q != pid ==> QuantityOf(r, q) == QuantityOf(lines, q)
  {
    match FindByProduct(lines, pid)
    case Some(i) =>
      var r := lines[i := lines[i].(quantity := lines[i].quantity + qty)];
      LineReplaced(lines, i, r[i], pid);
      forall q | q != pid
        ensures QuantityOf(r, q) == QuantityOf(lines, q)
      {
        LineReplaced(lines, i, r[i], q);
      }
      r
    case None =>
      var r := lines + [CartLine(freshId, pid, qty, price)];
      assert [CartLine(freshId, pid, qty, price)][1..] == [];
      UnitCountAppend(lines, [CartLine(freshId, pid, qty, price)]);
      QuantityOfAppend(lines, [CartLine(freshId, pid, qty, price)], pid);
      forall q | q != pid
        ensures QuantityOf(r, q) == QuantityOf(lines, q)
      {
        QuantityOfAppend(lines, [CartLine(freshId, pid, qty, price)], q);
      }
      r
  }

  /** Every line of the cart except those with key `itemId`, in their original order. */
  function Without(lines: seq<CartLine>, itemId: CartItemId): (r: seq<CartLine>)
    ensures forall l :: l in r <==> l in lines && l.id != itemId
    ensures (forall i :: 0 <= i < |lines| ==> lines[i].id != itemId) ==> r == lines
  {
    if lines == [] then []
    else if lines[0].id == itemId then Without(lines[1..], itemId)
    else [lines[0]] + Without(lines[1..], itemId)
  }

  /**
   Removing key `itemId` keeps every copy of every other line, in the original
   order, and no copy of a line with that key.
   */
  lemma {:induction false} WithoutKeepsCopies(lines: seq<CartLine>, itemId: CartItemId)
    ensures forall l: CartLine :: l.id != itemId ==> multiset(Without(lines, itemId))[l] == multiset(lines)[l]
    ensures forall l: CartLine :: l.id == itemId ==> multiset(Without(lines, itemId))[l] == 0
    ensures Subsequence(Without(lines, itemId), lines)
  {
    if lines != [] {
      WithoutKeepsCopies(lines[1..], itemId);
      assert lines == [lines[0]] + lines[1..];
    }
  }

  /** `a` is `b` with some elements left out and the rest kept in order. */
  ghost predicate Subsequence<T>(a: seq<T>, b: seq<T>)
    decreases |b|
  {
    if a == [] then true
    else if b == [] then false
    else (a[0] == b[0] && Subsequence(a[1..], b[1..])) || Subsequence(a, b[1..])
  }

  /** The reply view of one line, which shows the product's name and first image. */
  function ItemView(line: CartLine, products: map<ProductId, Product>): (r: Result<CartItemDto, Error>)
    ensures r.Ok? <==> line.productId in products
    ensures r.Err? ==> r.error == ProductNotFound
    ensures r.Ok? ==> Shows(r.value, line, products[line.productId])
  {
    if line.productId !in products then Err(ProductNotFound)
    else
      var p := products[line.productId];
      Ok(CartItemDto(line.id, line.productId, p.name, if p.images == [] then None else Some(p.images[0]),
                     line.price, line.quantity, LineValue(line)))
  }

  /** `item` shows `line` of a cart whose product is `p`, with the product's first image if it has one. */
  predicate Shows(item: CartItemDto, line: CartLine, p: Product)
  {
    && item.id == line.id
    && item.productId == line.productId
    && item.productName == p.name
    && item.productImage == (if p.images == [] then None else Some(p.images[0]))
    && item.price == line.price
    && item.quantity == line.quantity
    && item.subtotal == LineValue(line)
  }

  function ItemViews(lines: seq<CartLine>, products: map<ProductId, Product>)
    : (r: Result<seq<CartItemDto>, Error>)
    ensures r.Ok? <==> forall i :: 0 <= i < |lines| ==> lines[i].productId in products
    ensures r.Err? ==> r.error == ProductNotFound
    ensures r.Ok? ==> |r.value| == |lines|
    ensures r.Ok? ==>
              forall i :: 0 <= i < |lines| ==> Shows(r.value[i], lines[i], products[lines[i].productId])
  {
    if lines == [] then Ok([])
    else match (ItemView(lines[0], products), ItemViews(lines[1..], products))
      case (Ok(item), Ok(rest)) => Ok([item] + rest)
      case (Err(e), _) => Err(e)
      case (_, Err(e)) => Err(e)
  }

  function SumSubtotals(items: seq<CartItemDto>): Money
  {
    if items == [] then 0.0 else items[0].subtotal + SumSubtotals(items[1..])
  }

  function SumQuantities(items: seq<CartItemDto>): int
  {
    if items == [] then 0 else items[0].quantity + SumQuantities(items[1..])
  }

  /** Summing the shown lines gives the value and unit count of the cart lines themselves. */
  lemma {:induction false} SumsOfViews(items: seq<CartItemDto>, lines: seq<CartLine>, products: map<ProductId, Product>)
    requires |items| == |lines|
    requires forall i :: 0 <= i < |lines| ==> lines[i].productId in products
    requires forall i :: 0 <= i < |lines| ==> Shows(items[i], lines[i], products[lines[i].productId])
    ensures SumSubtotals(items) == LinesValue(lines)
    ensures SumQuantities(items) == UnitCount(lines)
  {
    if lines != [] {
      assert Shows(items[0], lines[0], products[lines[0].productId]);
      SumsOfViews(items[1..], lines[1..], products);
    }
  }

  /** The cart as shown to its owner, with the totals derived from the shown lines. */
  function View(lines: seq<CartLine>, products: map<ProductId, Product>): (r: Result<CartDto, Error>)
    ensures r.Ok? <==> forall i :: 0 <= i < |lines| ==> lines[i].productId in products
    ensures r.Err? ==> r.error == ProductNotFound
    ensures r.Ok? ==>
              && |r.value.items| == |lines|
              && (forall i :: 0 <= i < |lines| ==> Shows(r.value.items[i], lines[i], products[lines[i].productId]))
              && r.value.totalAmount == LinesValue(lines)
              && r.value.totalItems == UnitCount(lines)
    ensures lines == [] ==> r == Ok(CartDto([], 0.0, 0))
  {
    match ItemViews(lines, products)
    case Err(e) => Err(e)
    case Ok(items) =>
      SumsOfViews(items, lines, products);
      Ok(CartDto(items, SumSubtotals(items), SumQuantities(items)))
  }

  /** The caller's cart; a user without one gets a new empty cart, which is kept. */
  function GetCart(shop: Shop, user: UserId): (r: Reply<CartDto>)
    ensures user in shop.carts ==> r.shop == shop
    ensures user !in shop.carts ==>
              r.shop == shop.(carts := shop.carts[user := []]) && r.result == Ok(CartDto([], 0.0, 0))
    ensures user in r.shop.carts && r.result == View(r.shop.carts[user], r.shop.products)
    ensures r.result.Ok? ==> r.result.value.totalAmount == LinesValue(r.shop.carts[user])
                             && r.result.value.totalItems == UnitCount(r.shop.carts[user])
  {
    var shop' := if user in shop.carts then shop else shop.(carts := shop.carts[user := []]);
    Reply(shop', View(shop'.carts[user], shop'.products))
  }

  /** The caller's lines, an absent cart reading as an empty one. */
  function LinesOf(shop: Shop, user: UserId): seq<CartLine>
  {
    if user in shop.carts then shop.carts[user] else []
  }

  /**
   Adds `qty` units of product `pid` to the caller's cart. Only `qty` itself is
   checked against the stock, whatever the cart already holds, and `qty` has no
   lower bound.
   */
  function AddToCart(shop: Shop, user: UserId, pid: ProductId, qty: int): (r: Reply<CartDto>)
    ensures r.result.Err? ==> r.shop == shop
    ensures pid !in shop.products ==> r.result == Err(ProductNotFound)
    ensures pid in shop.products ==>
              (r.result == Err(InsufficientStock) <==> shop.products[pid].stock < qty)
    ensures r.result.Ok? ==>
              var before := LinesOf(shop, user);
              && pid in shop.products && qty <= shop.products[pid].stock
              && r.shop == shop.(carts := r.shop.carts, nextCartItemId := r.shop.nextCartItemId)
              && user in r.shop.carts
              && r.shop.carts == shop.carts[user := r.shop.carts[user]]
              && var after := r.shop.carts[user];
              && QuantityOf(after, pid) == QuantityOf(before, pid) + qty
              && UnitCount(after) == UnitCount(before) + qty
              && (forall q :: q != pid ==> QuantityOf(after, q) == QuantityOf(before, q))
              && (FindByProduct(before, pid).Some? ==>
                    var i := FindByProduct(before, pid).value;
                    && |after| == |before|
                    && after[i] == before[i].(quantity := before[i].quantity + qty)
                    && (forall j :: 0 <= j < |before| && j != i ==> after[j] == before[j])
                    && r.shop.nextCartItemId == shop.nextCartItemId)
              && (FindByProduct(before, pid).None? ==>
                    && after == before + [CartLine(shop.nextCartItemId, pid, qty, UnitPrice(shop.products[pid]))]
                    && r.shop.nextCartItemId == shop.nextCartItemId + 1)
              && r.result.value.totalAmount == LinesValue(after)
              && r.result.value.totalItems == UnitCount(after)
  {
    var before := LinesOf(shop, user);
    if pid !in shop.products then Reply(shop, Err(ProductNotFound))
    else if shop.products[pid].stock < qty then Reply(shop, Err(InsufficientStock))
    else
      var after := MergeInto(before, pid, UnitPrice(shop.products[pid]), qty, shop.nextCartItemId);
      var next := if FindByProduct(before, pid).Some? then shop.nextCartItemId else shop.nextCartItemId + 1;
      match View(after, shop.products)
      case Err(e) => Reply(shop, Err(e))
      case Ok(v) => Reply(shop.(carts := shop.carts[user := after], nextCartItemId := next), Ok(v))
  }

  /**
   Adding with the lower bound on the quantity that the stock check evidently
   assumes: a quantity of zero or less is refused, anything else is added as
   by `AddToCart`.
   */
  function AddToCartChecked(shop: Shop, user: UserId, pid: ProductId, qty: int): (r: Reply<CartDto>)
    ensures qty <= 0 ==> r == Reply(shop, Err(InvalidQuantity))
    ensures qty > 0 ==> r == AddToCart(shop, user, pid, qty)
  {
    if qty <= 0 then Reply(shop, Err(InvalidQuantity)) else AddToCart(shop, user, pid, qty)
  }

  /**
   Sets the quantity of the caller's line `itemId`; a quantity of zero or less
   removes the line instead. A positive quantity is checked against the stock.
   */
  function UpdateCartItem(shop: Shop, user: UserId, itemId: CartItemId, qty: int): (r: Reply<CartDto>)
    ensures r.result.Err? ==> r.shop == shop
    ensures user !in shop.carts ==> r.result == Err(CartNotFound)
    ensures user in shop.carts && FindById(shop.carts[user], itemId).None? ==> r.result == Err(CartItemNotFound)
    ensures user in shop.carts && FindById(shop.carts[user], itemId).Some? && qty > 0 ==>
              var line := shop.carts[user][FindById(shop.carts[user], itemId).value];
              line.productId in shop.products ==>
                (r.result == Err(InsufficientStock) <==> shop.products[line.productId].stock < qty)
    ensures r.result.Ok? ==>
              && user in shop.carts && FindById(shop.carts[user], itemId).Some?
              && user in r.shop.carts
              && r.shop == shop.(carts := shop.carts[user := r.shop.carts[user]])
              && var before, i := shop.carts[user], FindById(shop.carts[user], itemId).value;
              && var after := r.shop.carts[user];
              && (qty <= 0 ==>
                    && after == before[..i] + before[i+1..]
                    && UnitCount(after) == UnitCount(before) - before[i].quantity)
              && (qty > 0 ==>
                    && after == before[i := before[i].(quantity := qty)]
                    && before[i].productId in shop.products
                    && shop.products[before[i].productId].stock >= qty
                    && UnitCount(after) == UnitCount(before) - before[i].quantity + qty)
              && r.result.value.totalAmount == LinesValue(after)
              && r.result.value.totalItems == UnitCount(after)
  {
    if user !in shop.carts then Reply(shop, Err(CartNotFound))
    else
      var before := shop.carts[user];
      match FindById(before, itemId)
      case None => Reply(shop, Err(CartItemNotFound))
      case Some(i) =>
        var line := before[i];
        var after :=
          if qty <= 0 then Ok(before[..i] + before[i+1..])
          else if line.productId !in shop.products then Err(ProductNotFound)
          else if shop.products[line.productId].stock < qty then Err(InsufficientStock)
          else Ok(before[i := line.(quantity := qty)]);
        match after
        case Err(e) => Reply(shop, Err(e))
        case Ok(after) =>
          LineDropped(before, i, line.productId);
          LineReplaced(before, i, line.(quantity := qty), line.productId);
          match View(after, shop.products)
          case Err(e) => Reply(shop, Err(e))
          case Ok(v) => Reply(shop.(carts := shop.carts[user := after]), Ok(v))
  }

  /** Drops every line with key `itemId` from the caller's cart; an unknown key is not an error. */
  function RemoveFromCart(shop: Shop, user: UserId, itemId: CartItemId): (r: Reply<()>)
    ensures r.result.Err? <==> user !in shop.carts
    ensures r.result.Err? ==> r.shop == shop && r.result.error == CartNotFound
    ensures r.result.Ok? ==>
              && user in shop.carts && user in r.shop.carts
              && r.shop == shop.(carts := shop.carts[user := r.shop.carts[user]])
              && var before, after := shop.carts[user], r.shop.carts[user];
              && (forall l :: l in after <==> l in before && l.id != itemId)
              && ((forall i :: 0 <= i < |before| ==> before[i].id != itemId) ==> after == before)
  {
    if user !in shop.carts then Reply(shop, Err(CartNotFound))
    else Reply(shop.(carts := shop.carts[user := Without(shop.carts[user], itemId)]), Ok(()))
  }

  /** Removing a key from a cart keeps every copy of every line with another key, in order. */
  lemma RemoveKeepsOtherLines(shop: Shop, user: UserId, itemId: CartItemId)
    requires user in shop.carts
    ensures var after := RemoveFromCart(shop, user, itemId).shop.carts[user];
            && (forall l: CartLine :: l.id != itemId ==> multiset(after)[l] == multiset(shop.carts[user])[l])
            && Subsequence(after, shop.carts[user])
  {
    WithoutKeepsCopies(shop.carts[user], itemId);
  }

  /** Empties the caller's cart. */
  function ClearCart(shop: Shop, user: UserId): (r: Reply<()>)
    ensures r.result.Err? <==> user !in shop.carts
    ensures r.result.Err? ==> r.shop == shop && r.result.error == CartNotFound
    ensures r.result.Ok? ==> r.shop == shop.(carts := shop.carts[user := []])
  {
    if user !in shop.carts then Reply(shop, Err(CartNotFound))
    else Reply(shop.(carts := shop.carts[user := []]), Ok(()))
  }
}

=== FILE: entities.dfy ===
/**
 The persistent records of the storefront (products, categories, cart lines,
 orders and their items) and the state of the whole store, as immutable values.
 Identifiers are database keys; references between records are held as keys.
 */
module Entities {
  import opened Wrappers

  type ProductId = int
  type CategoryId = int
  type UserId = int
  type CartItemId = int
  type OrderId = int

  /** Monetary amounts are exact decimals in the store, so exact reals here. */
  type Money = real

  /** A point in time, in seconds; only ever supplied by the caller. */
  type Timestamp = int

  const SecondsPerDay: int := 24 * 60 * 60

  /** The category a product points at: its key and its display name. */
  datatype Category = Category(id: CategoryId, name: string)

  datatype Product = Product(
    name: string,
    description: string,
    price: Money,
    discountPrice: Option<Money>,
    stock: int,
    brand: string,
    images: seq<string>,
    category: Option<Category>,
    averageRating: real,
    totalReviews: int,
    sku: string,
    specifications: map<string, string>,
    featured: bool,
    active: bool,
    imageUrl: Option<string>)

  /** One line of a cart: the product, how many, and the unit price captured when it was added. */
  datatype CartLine = CartLine(id: CartItemId, productId: ProductId, quantity: int, price: Money)

  datatype OrderStatus = Pending | Confirmed | Processing | Shipped | Delivered | Cancelled | Returned

  datatype PaymentStatus = PaymentPending | Paid | PaymentFailed | Refunded

  datatype PaymentMethod = CreditCard | DebitCard | PayPal | Stripe | CashOnDelivery

  datatype ShippingAddress = ShippingAddress(
    fullName: string,
    phoneNumber: string,
    addressLine1: string,
    addressLine2: string,
    city: string,
    state: string,
    country: string,
    zipCode: string)

  /** A line of a placed order: a snapshot of the cart line and its subtotal. */
  datatype OrderItem = OrderItem(productId: ProductId, quantity: int, price: Money, subtotal: Money)

  datatype Order = Order(
    orderNumber: string,
    owner: UserId,
    items: seq<OrderItem>,
    subtotal: Money,
    tax: Money,
    shippingCost: Money,
    totalAmount: Money,
    status: OrderStatus,
    paymentStatus: PaymentStatus,
    paymentMethod: PaymentMethod,
    paymentTransactionId: Option<string>,
    shippingAddress: ShippingAddress,
    billingAddress: ShippingAddress,
    trackingNumber: Option<string>,
    estimatedDeliveryDate: Option<Timestamp>,
    deliveredDate: Option<Timestamp>,
    orderDate: Option<Timestamp>)

  /** The failures the services raise, one per distinct message. */
  datatype Error =
    | ProductNotFound
    | CategoryNotFound
    | NullId
    | CartNotFound
    | CartItemNotFound
    | InsufficientStock
    | InsufficientStockFor(productName: string)
    | CartEmpty
    | OrderNotFound
    | UnauthorizedOrderAccess
    | CannotCancel
    | InvalidQuantity

  /**
   The store. Carts are keyed by their owner (one cart per user), each holding
   its lines in the order they were added; the relation itself keeps no order,
   so this is one order the database may return. The `next…` counters play the
   role of the database's identity columns.
   */
  datatype Shop = Shop(
    products: map<ProductId, Product>,
    categories: map<CategoryId, string>,
    carts: map<UserId, seq<CartLine>>,
    orders: map<OrderId, Order>,
    nextProductId: ProductId,
    nextCartItemId: CartItemId,
    nextOrderId: OrderId)

  /** A service reply: the store after the call, and what the call returned or threw. */
  datatype Reply<+T> = Reply(shop: Shop, result: Result<T, Error>)

  /** The total quantity of one product over a sequence of cart lines. */
  function QuantityOf(lines: seq<CartLine>, pid: ProductId): int
  {
    if lines == [] then 0
    else (if lines[0].productId == pid then lines[0].quantity else 0) + QuantityOf(lines[1..], pid)
  }

  /** The total quantity of one product over a sequence of order items. */
  function ItemQuantityOf(items: seq<OrderItem>, pid: ProductId): int
  {
    if items == [] then 0
    else (if items[0].productId == pid then items[0].quantity else 0) + ItemQuantityOf(items[1..], pid)
  }

  /** What one cart line is worth: its unit price times its quantity. */
  function LineValue(line: CartLine): Money
  {
    line.price * (line.quantity as real)
  }

  /** The value of a sequence of cart lines: the sum of their line values. */
  function LinesValue(lines: seq<CartLine>): Money
  {
    if lines == [] then 0.0
    else LineValue(lines[0]) + LinesValue(lines[1..])
  }

  /** The number of units in a sequence of cart lines. */
  function UnitCount(lines: seq<CartLine>): int
  {
    if lines == [] then 0 else lines[0].quantity + UnitCount(lines[1..])
  }

  lemma {:induction false} QuantityOfAppend(a: seq<CartLine>, b: seq<CartLine>, pid: ProductId)
    ensures QuantityOf(a + b, pid) == QuantityOf(a, pid) + QuantityOf(b, pid)
  {
    if a == [] {
      assert a + b == b;
    } else {
      assert (a + b)[1..] == a[1..] + b;
      QuantityOfAppend(a[1..], b, pid);
    }
  }

  lemma {:induction false} UnitCountAppend(a: seq<CartLine>, b: seq<CartLine>)
    ensures UnitCount(a + b) == UnitCount(a) + UnitCount(b)
  {
    if a == [] {
      assert a + b == b;
    } else {
      assert (a + b)[1..] == a[1..] + b;
      UnitCountAppend(a[1..], b);
    }
  }

  lemma {:induction false} LinesValueAppend(a: seq<CartLine>, b: seq<CartLine>)
    ensures LinesValue(a + b) == LinesValue(a) + LinesValue(b)
  {
    if a == [] {
      assert a + b == b;
    } else {
      assert (a + b)[1..] == a[1..] + b;
      LinesValueAppend(a[1..], b);
    }
  }

  lemma {:induction false} SplitAt(s: seq<CartLine>, i: nat)
    requires i < |s|
    ensures s == s[..i] + ([s[i]] + s[i+1..])
  {
  }

  /** Every per-line total of `pre + [x] + post` splits around the line `x`. */
  lemma {:induction false} LineSplit(pre: seq<CartLine>, x: CartLine, post: seq<CartLine>, pid: ProductId)
    ensures UnitCount(pre + ([x] + post)) == UnitCount(pre) + x.quantity + UnitCount(post)
    ensures LinesValue(pre + ([x] + post)) == LinesValue(pre) + LineValue(x) + LinesValue(post)
    ensures QuantityOf(pre + ([x] + post), pid) ==
              QuantityOf(pre, pid) + (if x.productId == pid then x.quantity else 0) + QuantityOf(post, pid)
  {
    assert ([x] + post)[1..] == post;
    UnitCountAppend(pre, [x] + post);
    LinesValueAppend(pre, [x] + post);
    QuantityOfAppend(pre, [x] + post, pid);
  }

  /** Replacing one line changes every per-line total by the difference of that line alone. */
  lemma {:induction false} LineReplaced(s: seq<CartLine>, i: nat, x: CartLine, pid: ProductId)
    requires i < |s|
    ensures UnitCount(s[i := x]) == UnitCount(s) - s[i].quantity + x.quantity
    ensures LinesValue(s[i := x]) == LinesValue(s) - LineValue(s[i]) + LineValue(x)
    ensures QuantityOf(s[i := x], pid) ==
              QuantityOf(s, pid) - (if s[i].productId == pid then s[i].quantity else 0)
                                 + (if x.productId == pid then x.quantity else 0)
  {
    var pre, post := s[..i], s[i+1..];
    SplitAt(s, i);
    assert s[i := x] == pre + ([x] + post);
    LineSplit(pre, s[i], post, pid);
    LineSplit(pre, x, post, pid);
  }

  /** Dropping one line changes every per-line total by that line alone. */
  lemma {:induction false} LineDropped(s: seq<CartLine>, i: nat, pid: ProductId)
    requires i < |s|
    ensures UnitCount(s[..i] + s[i+1..]) == UnitCount(s) - s[i].quantity
    ensures LinesValue(s[..i] + s[i+1..]) == LinesValue(s) - LineValue(s[i])
    ensures QuantityOf(s[..i] + s[i+1..], pid) ==
              QuantityOf(s, pid) - (if s[i].productId == pid then s[i].quantity else 0)
  {
    SplitAt(s, i);
    LineSplit(s[..i], s[i], s[i+1..], pid);
    UnitCountAppend(s[..i], s[i+1..]);
    LinesValueAppend(s[..i], s[i+1..]);
    QuantityOfAppend(s[..i], s[i+1..], pid);
  }
}

=== FILE: freshness.dfy ===
/**
 The identity columns behind products, cart lines and orders never hand out a
 key twice. `FreshIds` states that of a store, every operation keeps it, and
 under it creating never overwrites and removing a cart line drops exactly one.
 */
module Freshness {
  import opened Wrappers
  import opened Entities
  import opened CartService
  import opened OrderService
  import opened ProductService
  import opened StockSafety

  ghost predicate LineIdsBelow(lines: seq<CartLine>, bound: CartItemId)
  {
    forall i :: 0 <= i < |lines| ==> lines[i].id < bound
  }

  ghost predicate DistinctLineIds(lines: seq<CartLine>)
  {
    forall i, j :: 0 <= i < j < |lines| ==> lines[i].id != lines[j].id
  }

  /** Every stored key lies below its counter, and no cart holds two lines with one key. */
  ghost predicate FreshIds(shop: Shop)
  {
    && (forall id :: id in shop.products ==> id < shop.nextProductId)
    && (forall id :: id in shop.orders ==> id < shop.nextOrderId)
    && (forall u :: u in shop.carts ==>
          LineIdsBelow(shop.carts[u], shop.nextCartItemId) && DistinctLineIds(shop.carts[u]))
  }

  /** Leaving out one line keeps the keys below the bound and distinct. */
  lemma {:induction false} DropKeepsIds(lines: seq<CartLine>, i: int, bound: CartItemId)
    requires 0 <= i < |lines|
    requires LineIdsBelow(lines, bound) && DistinctLineIds(lines)
    ensures LineIdsBelow(lines[..i] + lines[i + 1..], bound)
    ensures DistinctLineIds(lines[..i] + lines[i + 1..])
  {
    var after := lines[..i] + lines[i + 1..];
    forall k | 0 <= k < |after|
      ensures after[k] == lines[if k < i then k else k + 1]
    {
    }
  }

  /** Removing a key from two carts' worth of lines removes it from each part. */
  lemma {:induction false} WithoutSplits(a: seq<CartLine>, b: seq<CartLine>, itemId: CartItemId)
    ensures Without(a + b, itemId) == Without(a, itemId) + Without(b, itemId)
  {
    if a == [] {
      assert a + b == b;
    } else {
      assert (a + b)[0] == a[0] && (a + b)[1..] == a[1..] + b;
      WithoutSplits(a[1..], b, itemId);
    }
  }

  /** When only line `i` has key `itemId`, removing that key drops that one line and nothing else. */
  lemma {:induction false} WithoutDropsOne(lines: seq<CartLine>, itemId: CartItemId, i: int)
    requires 0 <= i < |lines| && lines[i].id == itemId
    requires forall k :: 0 <= k < |lines| && k != i ==> lines[k].id != itemId
    ensures Without(lines, itemId) == lines[..i] + lines[i + 1..]
  {
    var front, back := lines[..i], lines[i + 1..];
    assert lines == front + ([lines[i]] + back);
    WithoutSplits(front, [lines[i]] + back, itemId);
    WithoutSplits([lines[i]], back, itemId);
    forall k | 0 <= k < |front|
      ensures front[k].id != itemId
    {
      assert front[k] == lines[k];
    }
    forall k | 0 <= k < |back|
      ensures back[k].id != itemId
    {
      assert back[k] == lines[i + 1 + k];
    }
    assert Without([lines[i]], itemId) == [] by {
      assert [lines[i]][1..] == [];
    }
  }

  /** In a cart with distinct keys, the line FindById locates is the only one with that key. */
  lemma {:induction false} OnlyLineWithId(lines: seq<CartLine>, itemId: CartItemId)
    requires DistinctLineIds(lines) && FindById(lines, itemId).Some?
    ensures var i := FindById(lines, itemId).value;
            forall k :: 0 <= k < |lines| && k != i ==> lines[k].id != itemId
  {
    var i := FindById(lines, itemId).value;
    forall k | 0 <= k < |lines| && k != i
      ensures lines[k].id != itemId
    {
      if k < i {
        assert lines[k].id != lines[i].id;
      } else {
        assert lines[i].id != lines[k].id;
      }
    }
  }

  /** Under fresh keys, removing an existing line drops exactly that line. */
  lemma RemoveDropsOneLine(shop: Shop, user: UserId, itemId: CartItemId)
    requires FreshIds(shop)
    requires user in shop.carts && FindById(shop.carts[user], itemId).Some?
    ensures var before, i := shop.carts[user], FindById(shop.carts[user], itemId).value;
            RemoveFromCart(shop, user, itemId).shop.carts[user] == before[..i] + before[i + 1..]
  {
    var before, i := shop.carts[user], FindById(shop.carts[user], itemId).value;
    OnlyLineWithId(before, itemId);
    WithoutDropsOne(before, itemId, i);
  }

  /**
   Under fresh keys, and while every line of the cart names a stored product,
   removing a line and setting its quantity to 0 leave the same store.
   */
  lemma RemoveAgreesWithZeroUpdate(shop: Shop, user: UserId, itemId: CartItemId)
    requires FreshIds(shop)
    requires user in shop.carts && FindById(shop.carts[user], itemId).Some?
    requires forall k :: 0 <= k < |shop.carts[user]| ==> shop.carts[user][k].productId in shop.products
    ensures UpdateCartItem(shop, user, itemId, 0).result.Ok?
    ensures RemoveFromCart(shop, user, itemId).shop == UpdateCartItem(shop, user, itemId, 0).shop
  {
    var before, i := shop.carts[user], FindById(shop.carts[user], itemId).value;
    RemoveDropsOneLine(shop, user, itemId);
    var after := before[..i] + before[i + 1..];
    forall k | 0 <= k < |after|
      ensures after[k].productId in shop.products
    {
      assert after[k] == before[if k < i then k else k + 1];
    }
    assert View(after, shop.products).Ok?;
  }

  lemma GetCartKeepsFresh(shop: Shop, user: UserId)
    requires FreshIds(shop)
    ensures FreshIds(GetCart(shop, user).shop)
  {
  }

  lemma AddToCartKeepsFresh(shop: Shop, user: UserId, pid: ProductId, qty: int)
    requires FreshIds(shop)
    ensures FreshIds(AddToCart(shop, user, pid, qty).shop)
  {
    var r := AddToCart(shop, user, pid, qty);
    if r.result.Ok? {
      var before, after := LinesOf(shop, user), r.shop.carts[user];
      var next := r.shop.nextCartItemId;
      forall u | u in r.shop.carts
        ensures LineIdsBelow(r.shop.carts[u], next) && DistinctLineIds(r.shop.carts[u])
      {
        if u != user {
          assert r.shop.carts[u] == shop.carts[u];
        }
      }
    }
  }

  lemma UpdateCartItemKeepsFresh(shop: Shop, user: UserId, itemId: CartItemId, qty: int)
    requires FreshIds(shop)
    ensures FreshIds(UpdateCartItem(shop, user, itemId, qty).shop)
  {
    var r := UpdateCartItem(shop, user, itemId, qty);
    if r.result.Ok? {
      var before, i := shop.carts[user], FindById(shop.carts[user], itemId).value;
      if qty <= 0 {
        DropKeepsIds(before, i, shop.nextCartItemId);
      } else {
        var after := r.shop.carts[user];
        assert forall k :: 0 <= k < |after| ==> after[k].id == before[k].id;
      }
    }
  }

  lemma RemoveFromCartKeepsFresh(shop: Shop, user: UserId, itemId: CartItemId)
    requires FreshIds(shop)
    ensures FreshIds(RemoveFromCart(shop, user, itemId).shop)
  {
    if user in shop.carts {
      var before := shop.carts[user];
      match FindById(before, itemId)
      case None =>
      case Some(i) =>
        OnlyLineWithId(before, itemId);
        WithoutDropsOne(before, itemId, i);
        DropKeepsIds(before, i, shop.nextCartItemId);
    }
  }

  lemma ClearCartKeepsFresh(shop: Shop, user: UserId)
    requires FreshIds(shop)
    ensures FreshIds(ClearCart(shop, user).shop)
  {
  }

  lemma CreateOrderKeepsFresh(
    shop: Shop, user: UserId, data: map<string, string>, payment: PaymentMethod, number: string, now: Timestamp)
    requires FreshIds(shop)
    ensures FreshIds(CreateOrder(shop, user, data, payment, number, now).shop)
  {
    var r := CreateOrder(shop, user, data, payment, number, now);
    if r.result.Ok? {
      EmptiedCartKeepsFresh(shop, r.shop, user);
    }
  }

  /** Emptying one cart, adding the next order and leaving the other keys alone keeps the keys fresh. */
  lemma EmptiedCartKeepsFresh(shop: Shop, after: Shop, user: UserId)
    requires FreshIds(shop)
    requires after.carts == shop.carts[user := []]
    requires after.orders.Keys == shop.orders.Keys + {shop.nextOrderId} && after.nextOrderId == shop.nextOrderId + 1
    requires after.products.Keys == shop.products.Keys && after.nextProductId == shop.nextProductId
    requires after.nextCartItemId == shop.nextCartItemId
    ensures FreshIds(after)
  {
  }

  lemma UpdateOrderStatusKeepsFresh(shop: Shop, id: OrderId, status: OrderStatus, now: Timestamp)
    requires FreshIds(shop)
    ensures FreshIds(UpdateOrderStatus(shop, id, status, now).shop)
  {
  }

  lemma CancelOrderKeepsFresh(shop: Shop, user: UserId, id: OrderId)
    requires FreshIds(shop)
    ensures FreshIds(CancelOrder(shop, user, id).shop)
  {
  }

  lemma CreateProductKeepsFresh(shop: Shop, dto: ProductDto)
    requires FreshIds(shop)
    ensures FreshIds(CreateProduct(shop, dto).shop)
  {
  }

  lemma UpdateProductKeepsFresh(shop: Shop, id: ProductId, dto: ProductDto)
    requires FreshIds(shop)
    ensures FreshIds(UpdateProduct(shop, id, dto).shop)
  {
  }

  lemma DeleteProductKeepsFresh(shop: Shop, id: ProductId)
    requires FreshIds(shop)
    ensures FreshIds(DeleteProduct(shop, id).shop)
  {
  }

  /** Under fresh keys, checkout stores the new order beside every earlier one, overwriting none. */
  lemma CreateOrderKeepsEarlierOrders(
    shop: Shop, user: UserId, data: map<string, string>, payment: PaymentMethod, number: string, now: Timestamp)
    requires FreshIds(shop)
    ensures var r := CreateOrder(shop, user, data, payment, number, now);
            && shop.nextOrderId !in shop.orders
            && (r.result.Ok? ==>
                  && r.shop.orders.Keys == shop.orders.Keys + {shop.nextOrderId}
                  && forall id :: id in shop.orders ==> r.shop.orders[id] == shop.orders[id])
  {
  }

  /** Under fresh keys, creating a product stores it beside every earlier one, overwriting none. */
  lemma CreateProductKeepsEarlierProducts(shop: Shop, dto: ProductDto)
    requires FreshIds(shop)
    ensures var r := CreateProduct(shop, dto);
            && shop.nextProductId !in shop.products
            && (r.result.Ok? ==> forall id :: id in shop.products ==> r.shop.products[id] == shop.products[id])
  {
  }

  /** Every request keeps the keys fresh, served as written or with the corrected add. */
  lemma StepKeepsFresh(shop: Shop, req: Request)
    requires FreshIds(shop)
    ensures FreshIds(StepAsWritten(shop, req))
    ensures FreshIds(Step(shop, req))
  {
    StepDiffersOnlyOnNonPositiveAdds(shop, req);
    match req
    case Get(u) => GetCartKeepsFresh(shop, u);
    case Add(u, pid, qty) => AddToCartKeepsFresh(shop, u, pid, qty);
    case Update(u, itemId, qty) => UpdateCartItemKeepsFresh(shop, u, itemId, qty);
    case Remove(u, itemId) => RemoveFromCartKeepsFresh(shop, u, itemId);
    case Clear(u) => ClearCartKeepsFresh(shop, u);
    case Checkout(u, data, payment, number, now) => CreateOrderKeepsFresh(shop, u, data, payment, number, now);
    case Cancel(u, id) => CancelOrderKeepsFresh(shop, u, id);
    case SetStatus(id, status, now) => UpdateOrderStatusKeepsFresh(shop, id, status, now);
    case Delete(pid) => DeleteProductKeepsFresh(shop, pid);
  }

  /**
   No sequence of requests, served as written or with the corrected add, makes
   an identity column hand out a key already in use.
   */
  lemma {:induction false} RunKeepsFresh(shop: Shop, reqs: seq<Request>)
    requires FreshIds(shop)
    ensures FreshIds(RunAsWritten(shop, reqs))
    ensures FreshIds(Run(shop, reqs))
    decreases |reqs|
  {
    if reqs != [] {
      StepKeepsFresh(shop, reqs[0]);
      RunKeepsFresh(StepAsWritten(shop, reqs[0]), reqs[1..]);
      RunKeepsFresh(Step(shop, reqs[0]), reqs[1..]);
    }
  }
}

=== FILE: order_service.dfy ===
/**
 Checkout and the order lifecycle: turning the caller's cart into an order,
 reading an order, the unconditional status update, and cancellation with
 stock restoration. The order number and the clock are inputs.
 */
module OrderService {
  import opened Wrappers
  import opened Entities

  /** Tax is a tenth of the subtotal. */
  const TaxRate: Money := 0.1

  /** Every order pays the same flat shipping charge. */
  const FlatShipping: Money := 10.0

  /** An order is expected to arrive this many days after it is placed. */
  const DeliveryDays: int := 7

  /** The keys of the submitted shipping data, one per address field. */
  const AddressKeys: seq<string> :=
    ["fullName", "phoneNumber", "addressLine1", "addressLine2", "city", "state", "country", "zipCode"]

  /** The field of an address that the shipping-data key `key` fills. */
  function FieldOf(a: ShippingAddress, key: string): string
  {
    match key
    case "fullName" => a.fullName
    case "phoneNumber" => a.phoneNumber
    case "addressLine1" => a.addressLine1
    case "addressLine2" => a.addressLine2
    case "city" => a.city
    case "state" => a.state
    case "country" => a.country
    case "zipCode" => a.zipCode
    case _ => ""
  }

  /** A field of the submitted shipping data, an absent one reading as the empty string. */
  function Field(data: map<string, string>, key: string): string
  {
    if key in data then data[key] else ""
  }

  /** The address snapshot built from the submitted shipping data. */
  function ShippingFrom(data: map<string, string>): (a: ShippingAddress)
    ensures forall i :: 0 <= i < |AddressKeys| && AddressKeys[i] in data ==> FieldOf(a, AddressKeys[i]) == data[AddressKeys[i]]
    ensures forall i :: 0 <= i < |AddressKeys| && AddressKeys[i] !in data ==> FieldOf(a, AddressKeys[i]) == ""
  {
    ShippingAddress(
      Field(data, "fullName"), Field(data, "phoneNumber"), Field(data, "addressLine1"),
      Field(data, "addressLine2"), Field(data, "city"), Field(data, "state"),
      Field(data, "country"), Field(data, "zipCode"))
  }

  /** The shipping data that describes an address completely. */
  function DataOf(a: ShippingAddress): map<string, string>
  {
    map[
      "fullName" := a.fullName, "phoneNumber" := a.phoneNumber,
      "addressLine1" := a.addressLine1, "addressLine2" := a.addressLine2,
      "city" := a.city, "state" := a.state, "country" := a.country, "zipCode" := a.zipCode]
  }

  /** Submitting every field of an address gives back that address. */
  lemma ShippingRoundTrip(a: ShippingAddress)
    ensures ShippingFrom(DataOf(a)) == a
  {
  }

  /** The stock of `pid` still available once the lines `done` have been taken. */
  function Remaining(products: map<ProductId, Product>, done: seq<CartLine>, pid: ProductId): int
    requires pid in products
  {
    products[pid].stock - QuantityOf(done, pid)
  }

  /**
   Every line names a stored product whose stock, after the earlier lines have
   been taken, still covers the line's quantity.
   */
  ghost predicate Feasible(lines: seq<CartLine>, products: map<ProductId, Product>)
  {
    forall i :: 0 <= i < |lines| ==>
      lines[i].productId in products && lines[i].quantity <= Remaining(products, lines[..i], lines[i].productId)
  }

  /** Line `k` is the first one whose check fails, and `e` is the error it raises. */
  ghost predicate FirstFailure(lines: seq<CartLine>, products: map<ProductId, Product>, k: int, e: Error)
  {
    && 0 <= k < |lines|
    && Feasible(lines[..k], products)
    && var pid := lines[k].productId;
    && (pid !in products ==> e == ProductNotFound)
    && (pid in products ==>
          lines[k].quantity > Remaining(products, lines[..k], pid)
          && e == InsufficientStockFor(products[pid].name))
  }

  /** The order item a cart line turns into. */
  function ItemOf(line: CartLine): OrderItem
  {
    OrderItem(line.productId, line.quantity, line.price, LineValue(line))
  }

  /** The order items a cart turns into, one per line and in cart order. */
  function ItemsOf(lines: seq<CartLine>): (r: seq<OrderItem>)
    ensures |r| == |lines|
    ensures forall i :: 0 <= i < |lines| ==> r[i] == ItemOf(lines[i])
  {
    if lines == [] then [] else [ItemOf(lines[0])] + ItemsOf(lines[1..])
  }

  /** The product table once one line's quantity has been taken from its product's stock. */
  function Take(products: map<ProductId, Product>, line: CartLine): map<ProductId, Product>
    requires line.productId in products
  {
    var p := products[line.productId];
    products[line.productId := p.(stock := p.stock - line.quantity)]
  }

  /** What a successful pass over the cart produced. */
  datatype Reservation = Reservation(products: map<ProductId, Product>, items: seq<OrderItem>, subtotal: Money)

  /** Checking the first line and taking it leaves the rest to be checked against the reduced stock. */
  lemma {:induction false} FeasibleStep(lines: seq<CartLine>, products: map<ProductId, Product>)
    requires lines != [] && lines[0].productId in products
    requires lines[0].quantity <= products[lines[0].productId].stock
    ensures Feasible(lines, products) <==> Feasible(lines[1..], Take(products, lines[0]))
  {
    var l0, rest, after := lines[0], lines[1..], Take(products, lines[0]);
    forall i | 1 <= i < |lines|
      ensures lines[..i][1..] == rest[..i-1]
      ensures lines[i].productId in products ==>
                Remaining(products, lines[..i], lines[i].productId)
                == Remaining(after, rest[..i-1], lines[i].productId)
    {
      assert lines[..i][1..] == rest[..i-1];
    }
    if Feasible(lines, products) {
      forall j | 0 <= j < |rest|
        ensures rest[j].productId in after
        ensures rest[j].quantity <= Remaining(after, rest[..j], rest[j].productId)
      {
        assert rest[j] == lines[j + 1];
      }
    }
    if Feasible(rest, after) {
      forall i | 0 <= i < |lines|
        ensures lines[i].productId in products
        ensures lines[i].quantity <= Remaining(products, lines[..i], lines[i].productId)
      {
        if i > 0 {
          assert lines[i] == rest[i - 1];
        }
      }
    }
  }

  /**
   The stock pass of checkout: for each line in cart order, check the stock as
   left by the earlier lines, take the quantity from it and add the line's
   subtotal. The first line that fails aborts the whole pass.
   */
  function Reserve(lines: seq<CartLine>, products: map<ProductId, Product>): (r: Result<Reservation, Error>)
    ensures r.Ok? <==> Feasible(lines, products)
    ensures r.Err? ==> exists k :: FirstFailure(lines, products, k, r.error)
    ensures r.Ok? ==>
              && r.value.products.Keys == products.Keys
              && (forall pid :: pid in products ==>
                    r.value.products[pid] == products[pid].(stock := products[pid].stock - QuantityOf(lines, pid)))
              && (forall pid :: pid in products ==>
                    r.value.products[pid].stock >= 0 || r.value.products[pid] == products[pid])
              && r.value.items == ItemsOf(lines)
              && r.value.subtotal == LinesValue(lines)
    decreases |lines|
  {
    if lines == [] then Ok(Reservation(products, [], 0.0))
    else
      var line := lines[0];
      if line.productId !in products then
        assert FirstFailure(lines, products, 0, ProductNotFound);
        Err(ProductNotFound)
      else if products[line.productId].stock < line.quantity then
        assert FirstFailure(lines, products, 0, InsufficientStockFor(products[line.productId].name));
        Err(InsufficientStockFor(products[line.productId].name))
      else
        var after := Take(products, line);
        FeasibleStep(lines, products);
        match Reserve(lines[1..], after)
        case Err(e) =>
          assert exists k :: FirstFailure(lines, products, k, e) by {
            var k :| FirstFailure(lines[1..], after, k, e);
            FailureShifts(lines, products, k, e);
          }
          Err(e)
        case Ok(rest) =>
          TakeThenRest(products, lines, rest.products);
          var item := ItemOf(line);
          Ok(Reservation(rest.products, [item] + rest.items, item.subtotal + rest.subtotal))
  }

  /** Taking the first line and then the rest takes every line's quantity from the first stock. */
  lemma {:induction false} TakeThenRest(products: map<ProductId, Product>, lines: seq<CartLine>, final: map<ProductId, Product>)
    requires lines != [] && lines[0].productId in products
    requires lines[0].quantity <= products[lines[0].productId].stock
    requires var after := Take(products, lines[0]);
             && final.Keys == after.Keys
             && (forall pid :: pid in after ==>
                   final[pid] == after[pid].(stock := after[pid].stock - QuantityOf(lines[1..], pid)))
             && (forall pid :: pid in after ==> final[pid].stock >= 0 || final[pid] == after[pid])
    ensures final.Keys == products.Keys
    ensures forall pid :: pid in products ==>
              final[pid] == products[pid].(stock := products[pid].stock - QuantityOf(lines, pid))
    ensures forall pid :: pid in products ==> final[pid].stock >= 0 || final[pid] == products[pid]
  {
    var after := Take(products, lines[0]);
    forall pid | pid in products
      ensures final[pid] == products[pid].(stock := products[pid].stock - QuantityOf(lines, pid))
      ensures final[pid].stock >= 0 || final[pid] == products[pid]
    {
      assert pid in after;
    }
  }

  /** A first failure in the rest of the cart, checked against reduced stock, is a first failure of the whole cart. */
  lemma {:induction false} FailureShifts(lines: seq<CartLine>, products: map<ProductId, Product>, k: int, e: Error)
    requires lines != [] && lines[0].productId in products
    requires lines[0].quantity <= products[lines[0].productId].stock
    requires FirstFailure(lines[1..], Take(products, lines[0]), k, e)
    ensures FirstFailure(lines, products, k + 1, e)
  {
    var rest, after := lines[1..], Take(products, lines[0]);
    assert lines[..k+1][1..] == rest[..k];
    assert lines[..k+1] != [] && lines[..k+1][0] == lines[0];
    FeasibleStep(lines[..k+1], products);
    assert lines[k+1] == rest[k];
  }

  /** The stock pass of cancellation: each item's quantity goes back to its product. */
  function Restock(items: seq<OrderItem>, products: map<ProductId, Product>): (r: Result<map<ProductId, Product>, Error>)
    ensures r.Ok? <==> forall i :: 0 <= i < |items| ==> items[i].productId in products
    ensures r.Err? ==> r.error == ProductNotFound
    ensures r.Ok? ==>
              && r.value.Keys == products.Keys
              && forall pid :: pid in products ==>
                   r.value[pid] == products[pid].(stock := products[pid].stock + ItemQuantityOf(items, pid))
    decreases |items|
  {
    if items == [] then Ok(products)
    else if items[0].productId !in products then Err(ProductNotFound)
    else
      var p := products[items[0].productId];
      var after := products[items[0].productId := p.(stock := p.stock + items[0].quantity)];
      match Restock(items[1..], after)
      case Err(e) => Err(e)
      case Ok(ps) => Ok(ps)
  }

  /**
   Places an order for everything in the caller's cart, all or nothing: any
   failure leaves the store exactly as it was.
   */
  function CreateOrder(
    shop: Shop, user: UserId, shippingData: map<string, string>, payment: PaymentMethod,
    orderNumber: string, now: Timestamp): (r: Reply<Order>)
    ensures r.result.Err? ==> r.shop == shop
    ensures user !in shop.carts ==> r.result == Err(CartNotFound)
    ensures user in shop.carts && shop.carts[user] == [] ==> r.result == Err(CartEmpty)
    ensures r.result.Ok? <==>
              user in shop.carts && shop.carts[user] != [] && Feasible(shop.carts[user], shop.products)
    ensures r.result.Err? && user in shop.carts && shop.carts[user] != [] ==>
              exists k :: FirstFailure(shop.carts[user], shop.products, k, r.result.error)
    ensures r.result.Ok? ==>
              var lines, o, id := shop.carts[user], r.result.value, shop.nextOrderId;
              && r.shop.carts == shop.carts[user := []]
              && r.shop.orders == shop.orders[id := o]
              && r.shop.nextOrderId == id + 1
              && r.shop.categories == shop.categories
              && r.shop.nextProductId == shop.nextProductId
              && r.shop.nextCartItemId == shop.nextCartItemId
              && r.shop.products.Keys == shop.products.Keys
              && (forall pid :: pid in shop.products ==>
                    r.shop.products[pid]
                    == shop.products[pid].(stock := shop.products[pid].stock - QuantityOf(lines, pid)))
              && (forall pid :: pid in shop.products && shop.products[pid].stock >= 0 ==>
                    r.shop.products[pid].stock >= 0)
              && o.items == ItemsOf(lines)
              && o.subtotal == LinesValue(lines)
              && o.tax == o.subtotal / 10.0
              && o.shippingCost == 10.0
              && o.totalAmount == o.subtotal + o.tax + o.shippingCost
              && o.status == Pending && o.paymentStatus == PaymentPending
              && o.owner == user && o.orderNumber == orderNumber && o.paymentMethod == payment
              && o.billingAddress == o.shippingAddress
              && o.shippingAddress == ShippingFrom(shippingData)
              && o.deliveredDate == None
              && o.estimatedDeliveryDate == Some(now + 7 * SecondsPerDay)
  {
    if user !in shop.carts then Reply(shop, Err(CartNotFound))
    else
      var lines := shop.carts[user];
      if lines == [] then Reply(shop, Err(CartEmpty))
      else
        var address := ShippingFrom(shippingData);
        match Reserve(lines, shop.products)
        case Err(e) => Reply(shop, Err(e))
        case Ok(res) =>
          var tax := res.subtotal * TaxRate;
          var order := Order(
            orderNumber, user, res.items, res.subtotal, tax, FlatShipping, res.subtotal + tax + FlatShipping,
            Pending, PaymentPending, payment, None, address, address, None,
            Some(now + DeliveryDays * SecondsPerDay), None, Some(now));
          Reply(
            shop.(products := res.products,
                  carts := shop.carts[user := []],
                  orders := shop.orders[shop.nextOrderId := order],
                  nextOrderId := shop.nextOrderId + 1),
            Ok(order))
  }

  /** The order `orderId`, provided the caller owns it. */
  function GetOrderById(shop: Shop, user: UserId, orderId: OrderId): (r: Result<Order, Error>)
    ensures orderId !in shop.orders <==> r == Err(OrderNotFound)
    ensures orderId in shop.orders ==>
              (r == Err(UnauthorizedOrderAccess) <==> shop.orders[orderId].owner != user)
    ensures r.Ok? <==> orderId in shop.orders && shop.orders[orderId].owner == user
    ensures r.Ok? ==> r.value == shop.orders[orderId]
  {
    if orderId !in shop.orders then Err(OrderNotFound)
    else if shop.orders[orderId].owner != user then Err(UnauthorizedOrderAccess)
    else Ok(shop.orders[orderId])
  }

  /**
   Sets any status, with no check of the transition; reaching Delivered also
   stamps the delivery time.
   */
  function UpdateOrderStatus(shop: Shop, orderId: OrderId, status: OrderStatus, now: Timestamp): (r: Reply<Order>)
    ensures r.result.Err? <==> orderId !in shop.orders
    ensures r.result.Err? ==> r.shop == shop && r.result.error == OrderNotFound
    ensures r.result.Ok? ==>
              var was, o := shop.orders[orderId], r.result.value;
              && r.shop == shop.(orders := shop.orders[orderId := o])
              && o.status == status
              && (status == Delivered ==> o.deliveredDate == Some(now))
              && (status != Delivered ==> o.deliveredDate == was.deliveredDate)
              && o.(status := was.status, deliveredDate := was.deliveredDate) == was
  {
    if orderId !in shop.orders then Reply(shop, Err(OrderNotFound))
    else
      var was := shop.orders[orderId];
      var o := if status == Delivered then was.(status := status, deliveredDate := Some(now))
               else was.(status := status);
      Reply(shop.(orders := shop.orders[orderId := o]), Ok(o))
  }

  /** Only a pending or confirmed order may be cancelled. */
  predicate Cancellable(s: OrderStatus)
  {
    s == Pending || s == Confirmed
  }

  /**
   Cancels the caller's own pending or confirmed order and gives its items'
   quantities back to stock.
   */
  function CancelOrder(shop: Shop, user: UserId, orderId: OrderId): (r: Reply<Order>)
    ensures r.result.Err? ==> r.shop == shop
    ensures orderId !in shop.orders ==> r.result == Err(OrderNotFound)
    ensures orderId in shop.orders && shop.orders[orderId].owner != user ==>
              r.result == Err(UnauthorizedOrderAccess)
    ensures orderId in shop.orders && shop.orders[orderId].owner == user ==>
              (r.result == Err(CannotCancel) <==> !Cancellable(shop.orders[orderId].status))
    ensures r.result.Ok? <==>
              && orderId in shop.orders
              && shop.orders[orderId].owner == user
              && Cancellable(shop.orders[orderId].status)
              && forall i :: 0 <= i < |shop.orders[orderId].items| ==>
                   shop.orders[orderId].items[i].productId in shop.products
    ensures r.result.Ok? ==>
              var was, o := shop.orders[orderId], r.result.value;
              && was.owner == user && Cancellable(was.status)
              && o == was.(status := Cancelled)
              && r.shop == shop.(products := r.shop.products, orders := shop.orders[orderId := o])
              && r.shop.products.Keys == shop.products.Keys
              && (forall pid :: pid in shop.products ==>
                    r.shop.products[pid]
                    == shop.products[pid].(stock := shop.products[pid].stock + ItemQuantityOf(was.items, pid)))
  {
    if orderId !in shop.orders then Reply(shop, Err(OrderNotFound))
    else
      var was := shop.orders[orderId];
      if was.owner != user then Reply(shop, Err(UnauthorizedOrderAccess))
      else if !Cancellable(was.status) then Reply(shop, Err(CannotCancel))
      else match Restock(was.items, shop.products)
        case Err(e) => Reply(shop, Err(e))
        case Ok(products) =>
          var o := was.(status := Cancelled);
          Reply(shop.(products := products, orders := shop.orders[orderId := o]), Ok(o))
  }
}

=== FILE: product_service.dfy ===
/**
 Catalog maintenance: reading a product, creating one from a transfer object,
 overwriting its editable fields, and soft-deleting it.
 */
module ProductService {
  import opened Wrappers
  import opened Entities

  /** The product transfer object, used both as the request body and as the reply. */
  datatype ProductDto = ProductDto(
    id: Option<ProductId>,
    name: string,
    description: string,
    price: Money,
    discountPrice: Option<Money>,
    stock: int,
    brand: string,
    images: seq<string>,
    categoryId: Option<CategoryId>,
    categoryName: Option<string>,
    averageRating: real,
    totalReviews: int,
    sku: string,
    specifications: map<string, string>,
    featured: bool,
    active: bool,
    imageUrl: Option<string>)

  /** The reply view of a stored product. The image URL is never filled in. */
  function ToDto(id: ProductId, p: Product): (d: ProductDto)
    ensures d.id == Some(id)
    ensures d.categoryId.None? <==> p.category.None?
    ensures d.categoryName.None? <==> p.category.None?
    ensures p.category.Some? ==>
              d.categoryId == Some(p.category.value.id) && d.categoryName == Some(p.category.value.name)
    ensures d.imageUrl == None
    ensures SameEditableFields(p, d) && d.active == p.active
    ensures d.averageRating == p.averageRating && d.totalReviews == p.totalReviews
  {
    ProductDto(
      Some(id), p.name, p.description, p.price, p.discountPrice, p.stock, p.brand, p.images,
      if p.category.Some? then Some(p.category.value.id) else None,
      if p.category.Some? then Some(p.category.value.name) else None,
      p.averageRating, p.totalReviews, p.sku, p.specifications, p.featured, p.active, None)
  }

  /** The ten fields an update overwrites agree between the product and the transfer object. */
  predicate SameEditableFields(p: Product, d: ProductDto)
  {
    && p.name == d.name
    && p.description == d.description
    && p.price == d.price
    && p.discountPrice == d.discountPrice
    && p.stock == d.stock
    && p.brand == d.brand
    && p.images == d.images
    && p.sku == d.sku
    && p.specifications == d.specifications
    && p.featured == d.featured
  }

  function GetProductById(shop: Shop, id: ProductId): (r: Result<ProductDto, Error>)
    ensures r.Err? <==> id !in shop.products
    ensures r.Err? ==> r.error == ProductNotFound
    ensures r.Ok? ==> r.value.id == Some(id) && SameEditableFields(shop.products[id], r.value)
    ensures r.Ok? ==> r.value.active == shop.products[id].active
    ensures r.Ok? ==> r.value == ToDto(id, shop.products[id])
  {
    if id !in shop.products then Err(ProductNotFound)
    else Ok(ToDto(id, shop.products[id]))
  }

  /** Looks a category up by a possibly-null key. */
  function FindCategory(shop: Shop, categoryId: Option<CategoryId>): (r: Result<Category, Error>)
    ensures categoryId.None? ==> r == Err(NullId)
    ensures categoryId.Some? && categoryId.value !in shop.categories ==> r == Err(CategoryNotFound)
    ensures r.Ok? ==> categoryId == Some(r.value.id) && r.value.id in shop.categories
                      && r.value.name == shop.categories[r.value.id]
    ensures categoryId.Some? && categoryId.value in shop.categories ==>
              r == Ok(Category(categoryId.value, shop.categories[categoryId.value]))
  {
    if categoryId.None? then Err(NullId)
    else if categoryId.value !in shop.categories then Err(CategoryNotFound)
    else Ok(Category(categoryId.value, shop.categories[categoryId.value]))
  }

  /**
   Stores a new active product under the next free key. Rating, review count
   and image URL start at their defaults; everything else comes from `dto`.
   */
  function CreateProduct(shop: Shop, dto: ProductDto): (r: Reply<ProductDto>)
    ensures r.result.Err? ==> r.shop == shop
    ensures dto.categoryId.None? ==> r.result == Err(NullId)
    ensures dto.categoryId.Some? ==>
              (r.result == Err(CategoryNotFound) <==> dto.categoryId.value !in shop.categories)
    ensures r.result.Ok? <==> dto.categoryId.Some? && dto.categoryId.value in shop.categories
    ensures r.result.Ok? ==>
              var id := shop.nextProductId;
              && r.shop == shop.(products := r.shop.products, nextProductId := id + 1)
              && r.shop.products.Keys == shop.products.Keys + {id}
              && (forall k :: k in shop.products && k != id ==> r.shop.products[k] == shop.products[k])
              && var p := r.shop.products[id];
              && SameEditableFields(p, dto)
              && p.active
              && p.category == Some(Category(dto.categoryId.value, shop.categories[dto.categoryId.value]))
              && p.averageRating == 0.0 && p.totalReviews == 0 && p.imageUrl == None
              && r.result.value == ToDto(id, p)
  {
    match FindCategory(shop, dto.categoryId)
    case Err(e) => Reply(shop, Err(e))
    case Ok(category) =>
      var p := Product(
        dto.name, dto.description, dto.price, dto.discountPrice, dto.stock, dto.brand, dto.images,
        Some(category), 0.0, 0, dto.sku, dto.specifications, dto.featured, true, None);
      var id := shop.nextProductId;
      Reply(shop.(products := shop.products[id := p], nextProductId := id + 1), Ok(ToDto(id, p)))
  }

  /**
   Overwrites the editable fields of product `id` with those of `dto`. A
   non-null category key re-points the category; a null one keeps it.
   */
  function UpdateProduct(shop: Shop, id: ProductId, dto: ProductDto): (r: Reply<ProductDto>)
    ensures r.result.Err? ==> r.shop == shop
    ensures r.result == Err(ProductNotFound) <==> id !in shop.products
    ensures r.result.Ok? <==> id in shop.products && (dto.categoryId.None? || dto.categoryId.value in shop.categories)
    ensures id in shop.products ==>
              (r.result == Err(CategoryNotFound) <==>
                 dto.categoryId.Some? && dto.categoryId.value !in shop.categories)
    ensures r.result.Ok? ==>
              && id in shop.products
              && r.shop == shop.(products := r.shop.products)
              && r.shop.products.Keys == shop.products.Keys
              && (forall k :: k in shop.products && k != id ==> r.shop.products[k] == shop.products[k])
              && var was := shop.products[id];
              && var p := r.shop.products[id];
              && SameEditableFields(p, dto)
              && p.active == was.active
              && p.averageRating == was.averageRating
              && p.totalReviews == was.totalReviews
              && p.imageUrl == was.imageUrl
              && (dto.categoryId.None? ==> p.category == was.category)
              && (dto.categoryId.Some? ==>
                    && dto.categoryId.value in shop.categories
                    && p.category == Some(Category(dto.categoryId.value, shop.categories[dto.categoryId.value])))
              && r.result.value == ToDto(id, p)
  {
    if id !in shop.products then Reply(shop, Err(ProductNotFound))
    else
      var p := shop.products[id];
      var category :=
        if dto.categoryId.None? then Ok(p.category)
        else if dto.categoryId.value !in shop.categories then Err(CategoryNotFound)
        else Ok(Some(Category(dto.categoryId.value, shop.categories[dto.categoryId.value])));
      match category
      case Err(e) => Reply(shop, Err(e))
      case Ok(c) =>
        var p' := p.(
          category := c, name := dto.name, description := dto.description, price := dto.price,
          discountPrice := dto.discountPrice, stock := dto.stock, brand := dto.brand,
          images := dto.images, sku := dto.sku, specifications := dto.specifications,
          featured := dto.featured);
        Reply(shop.(products := shop.products[id := p']), Ok(ToDto(id, p')))
  }

  /** Soft delete: the product stays stored but is marked inactive. */
  function DeleteProduct(shop: Shop, id: ProductId): (r: Reply<()>)
    ensures r.result.Err? <==> id !in shop.products
    ensures r.result.Err? ==> r.shop == shop && r.result.error == ProductNotFound
    ensures r.result.Ok? ==>
              && r.shop == shop.(products := r.shop.products)
              && r.shop.products == shop.products[id := shop.products[id].(active := false)]
  {
    if id !in shop.products then Reply(shop, Err(ProductNotFound))
    else Reply(shop.(products := shop.products[id := shop.products[id].(active := false)]), Ok(()))
  }

  /** A created product reads back with the fields it was created from. */
  lemma CreateThenGet(shop: Shop, dto: ProductDto)
    requires CreateProduct(shop, dto).result.Ok?
    ensures var r := CreateProduct(shop, dto);
            var g := GetProductById(r.shop, shop.nextProductId);
            && g.Ok?
            && SameEditableFields(r.shop.products[shop.nextProductId], g.value)
            && g.value.active
            && g.value.categoryId == dto.categoryId
  {
  }

  /** Deleting a product twice has the same effect as deleting it once. */
  lemma DeleteIdempotent(shop: Shop, id: ProductId)
    ensures var once := DeleteProduct(shop, id);
            DeleteProduct(once.shop, id) == once
  {
  }

  /** Applying the same update twice has the same effect as applying it once. */
  lemma UpdateIdempotent(shop: Shop, id: ProductId, dto: ProductDto)
    requires UpdateProduct(shop, id, dto).result.Ok?
    ensures var once := UpdateProduct(shop, id, dto);
            UpdateProduct(once.shop, id, dto) == once
  {
  }
}

=== FILE: shop_properties.dfy ===
/**
 Properties that relate several service calls: what checkout takes from
 stock, cancellation gives back; cancellation is one-shot; repeated adds of
 one product share one line; the cart total is what checkout charges before
 tax and shipping; and cart lines keep pointing at stored products.
 */
module ShopProperties {
  import opened Wrappers
  import opened Entities
  import opened CartService
  import opened OrderService

  /** Order items copied line by line from a cart carry the same per-product quantities. */
  lemma {:induction false} ItemQuantitiesMatchLines(items: seq<OrderItem>, lines: seq<CartLine>, pid: ProductId)
    requires |items| == |lines|
    requires forall i :: 0 <= i < |lines| ==> items[i] == ItemOf(lines[i])
    ensures ItemQuantityOf(items, pid) == QuantityOf(lines, pid)
  {
    if lines != [] {
      assert items[0] == ItemOf(lines[0]);
      ItemQuantitiesMatchLines(items[1..], lines[1..], pid);
    }
  }

  /** Giving back per product exactly what was taken restores the product table. */
  lemma {:induction false} RestockUndoesTake(
    products: map<ProductId, Product>, lines: seq<CartLine>, items: seq<OrderItem>,
    taken: map<ProductId, Product>, restored: map<ProductId, Product>)
    requires |items| == |lines|
    requires forall i :: 0 <= i < |lines| ==> items[i] == ItemOf(lines[i])
    requires taken.Keys == products.Keys && restored.Keys == products.Keys
    requires forall pid :: pid in products ==>
               taken[pid] == products[pid].(stock := products[pid].stock - QuantityOf(lines, pid))
    requires forall pid :: pid in taken ==>
               restored[pid] == taken[pid].(stock := taken[pid].stock + ItemQuantityOf(items, pid))
    ensures restored == products
  {
    forall pid | pid in products
      ensures restored[pid] == products[pid]
    {
      ItemQuantitiesMatchLines(items, lines, pid);
    }
  }

  /**
   Cancelling an order whose items were copied from `lines`, in a store whose
   stock is `products` less those lines, gives the stock back to `products`.
   */
  lemma {:induction false} CancelRestoresTakenStock(
    shop: Shop, user: UserId, id: OrderId, products: map<ProductId, Product>, lines: seq<CartLine>)
    requires id in shop.orders && shop.orders[id].owner == user && Cancellable(shop.orders[id].status)
    requires shop.orders[id].items == ItemsOf(lines)
    requires forall i :: 0 <= i < |lines| ==> lines[i].productId in products
    requires shop.products.Keys == products.Keys
    requires forall pid :: pid in products ==>
               shop.products[pid] == products[pid].(stock := products[pid].stock - QuantityOf(lines, pid))
    ensures var cancelled := CancelOrder(shop, user, id);
            && cancelled.result.Ok?
            && cancelled.result.value.status == Cancelled
            && cancelled.shop.products == products
  {
    var items := shop.orders[id].items;
    forall i | 0 <= i < |items|
      ensures items[i].productId in shop.products
    {
      assert items[i].productId == lines[i].productId;
    }
    var cancelled := CancelOrder(shop, user, id);
    assert cancelled.result.Ok?;
    RestockUndoesTake(products, lines, items, shop.products, cancelled.shop.products);
  }

  /**
   Cancelling an order straight after placing it succeeds and puts every
   product back exactly as it was before checkout.
   */
  lemma CancelUndoesCheckout(
    shop: Shop, user: UserId, data: map<string, string>, payment: PaymentMethod, number: string, now: Timestamp)
    requires CreateOrder(shop, user, data, payment, number, now).result.Ok?
    ensures var placed := CreateOrder(shop, user, data, payment, number, now);
            var cancelled := CancelOrder(placed.shop, user, shop.nextOrderId);
            && cancelled.result.Ok?
            && cancelled.result.value.status == Cancelled
            && cancelled.shop.products == shop.products
  {
    var placed := CreateOrder(shop, user, data, payment, number, now);
    var lines := shop.carts[user];
    assert Feasible(lines, shop.products);
    CancelRestoresTakenStock(placed.shop, user, shop.nextOrderId, shop.products, lines);
  }

  /** A cancelled order cannot be cancelled again, and the attempt changes nothing. */
  lemma CancelIsOneShot(shop: Shop, user: UserId, orderId: OrderId)
    requires CancelOrder(shop, user, orderId).result.Ok?
    ensures var once := CancelOrder(shop, user, orderId);
            CancelOrder(once.shop, user, orderId) == Reply(once.shop, Err(CannotCancel))
  {
  }

  /**
   Setting a cancelled order back to pending makes it cancellable again, and the
   second cancellation gives the same quantities back to stock once more.
   */
  lemma ReopenRestocksTwice(shop: Shop, user: UserId, orderId: OrderId, now: Timestamp)
    requires CancelOrder(shop, user, orderId).result.Ok?
    ensures var once := CancelOrder(shop, user, orderId);
            var reopened := UpdateOrderStatus(once.shop, orderId, Pending, now);
            var twice := CancelOrder(reopened.shop, user, orderId);
            && twice.result.Ok?
            && forall pid :: pid in shop.products ==>
                 twice.shop.products[pid].stock
                 == shop.products[pid].stock + 2 * ItemQuantityOf(shop.orders[orderId].items, pid)
  {
    var once := CancelOrder(shop, user, orderId);
    var reopened := UpdateOrderStatus(once.shop, orderId, Pending, now);
    assert reopened.shop.orders[orderId].items == shop.orders[orderId].items;
    assert reopened.shop.products == once.shop.products;
  }

  /** A placed order reads back to its owner, and to nobody else. */
  lemma PlacedOrderReadsBack(
    shop: Shop, user: UserId, other: UserId, data: map<string, string>, payment: PaymentMethod,
    number: string, now: Timestamp)
    requires CreateOrder(shop, user, data, payment, number, now).result.Ok?
    ensures var placed := CreateOrder(shop, user, data, payment, number, now);
            GetOrderById(placed.shop, user, shop.nextOrderId) == Ok(placed.result.value)
    ensures var placed := CreateOrder(shop, user, data, payment, number, now);
            other != user ==> GetOrderById(placed.shop, other, shop.nextOrderId) == Err(UnauthorizedOrderAccess)
  {
  }

  /**
   Adding a product that is not yet in the cart twice leaves one line for it,
   holding both quantities and the price captured by the first add.
   */
  lemma AddTwiceMerges(shop: Shop, user: UserId, pid: ProductId, q1: int, q2: int)
    requires FindByProduct(LinesOf(shop, user), pid).None?
    requires AddToCart(shop, user, pid, q1).result.Ok?
    requires AddToCart(AddToCart(shop, user, pid, q1).shop, user, pid, q2).result.Ok?
    ensures var s1 := AddToCart(shop, user, pid, q1).shop;
            var s2 := AddToCart(s1, user, pid, q2).shop;
            var before, after := LinesOf(shop, user), s2.carts[user];
            && |after| == |before| + 1
            && after[..|before|] == before
            && after[|before|] == CartLine(shop.nextCartItemId, pid, q1 + q2, UnitPrice(shop.products[pid]))
            && (forall i :: 0 <= i < |before| ==> after[i].productId != pid)
  {
    var s1 := AddToCart(shop, user, pid, q1).shop;
    var before, mid := LinesOf(shop, user), s1.carts[user];
    assert mid == before + [CartLine(shop.nextCartItemId, pid, q1, UnitPrice(shop.products[pid]))];
    assert LinesOf(s1, user) == mid;
    assert mid[|before|].productId == pid;
    assert FindByProduct(mid, pid) == Some(|before|);
  }

  /** Every line of every cart names a stored product. */
  ghost predicate CartsResolve(shop: Shop)
  {
    forall u, i :: u in shop.carts && 0 <= i < |shop.carts[u]| ==> shop.carts[u][i].productId in shop.products
  }

  /**
   While every cart line names a stored product, updating a line succeeds
   exactly when the caller's cart holds that line and the quantity is zero or
   less (a removal) or within the product's stock.
   */
  lemma UpdateCartItemSucceeds(shop: Shop, user: UserId, itemId: CartItemId, qty: int)
    requires CartsResolve(shop)
    ensures UpdateCartItem(shop, user, itemId, qty).result.Ok? <==>
              && user in shop.carts
              && FindById(shop.carts[user], itemId).Some?
              && (qty <= 0 ||
                  shop.products[shop.carts[user][FindById(shop.carts[user], itemId).value].productId].stock >= qty)
  {
    if user in shop.carts && FindById(shop.carts[user], itemId).Some? {
      var before, i := shop.carts[user], FindById(shop.carts[user], itemId).value;
      assert forall k :: 0 <= k < |before| ==> before[k].productId in shop.products;
      if qty <= 0 {
        DroppedLinesResolve(before, i, shop.products);
      } else {
        ReplacedLinesResolve(before, i, qty, shop.products);
      }
    }
  }

  /** Dropping a line from lines that all name stored products leaves lines that all do. */
  lemma DroppedLinesResolve(lines: seq<CartLine>, i: int, products: map<ProductId, Product>)
    requires 0 <= i < |lines|
    requires forall k :: 0 <= k < |lines| ==> lines[k].productId in products
    ensures View(lines[..i] + lines[i + 1..], products).Ok?
  {
    var after := lines[..i] + lines[i + 1..];
    forall k | 0 <= k < |after|
      ensures after[k].productId in products
    {
      assert after[k] == lines[if k < i then k else k + 1];
    }
  }

  /** Changing a line's quantity in lines that all name stored products leaves lines that all do. */
  lemma ReplacedLinesResolve(lines: seq<CartLine>, i: int, qty: int, products: map<ProductId, Product>)
    requires 0 <= i < |lines|
    requires forall k :: 0 <= k < |lines| ==> lines[k].productId in products
    ensures View(lines[i := lines[i].(quantity := qty)], products).Ok?
  {
    var after := lines[i := lines[i].(quantity := qty)];
    assert forall k :: 0 <= k < |after| ==> after[k].productId == lines[k].productId;
  }

  /**
   While every cart line names a stored product, adding a stored product with
   enough stock succeeds, and every cart line still names a stored product.
   */
  lemma AddToCartKeepsReferences(shop: Shop, user: UserId, pid: ProductId, qty: int)
    requires CartsResolve(shop)
    ensures var r := AddToCart(shop, user, pid, qty);
            && (r.result.Ok? <==> pid in shop.products && qty <= shop.products[pid].stock)
            && CartsResolve(r.shop)
  {
    if pid in shop.products && qty <= shop.products[pid].stock {
      var before := LinesOf(shop, user);
      var after := MergeInto(before, pid, UnitPrice(shop.products[pid]), qty, shop.nextCartItemId);
      forall i | 0 <= i < |after|
        ensures after[i].productId in shop.products
      {
        if i < |before| {
          assert after[i].productId == before[i].productId;
        }
      }
    }
  }

  /** Placing an order keeps every remaining cart line pointing at a stored product. */
  lemma CreateOrderKeepsReferences(
    shop: Shop, user: UserId, data: map<string, string>, payment: PaymentMethod, number: string, now: Timestamp)
    requires CartsResolve(shop)
    ensures CartsResolve(CreateOrder(shop, user, data, payment, number, now).shop)
  {
  }

  /**
   The subtotal checkout charges is the total the cart showed its owner just
   before; tax and shipping come on top.
   */
  lemma CheckoutChargesCartTotal(
    shop: Shop, user: UserId, data: map<string, string>, payment: PaymentMethod, number: string, now: Timestamp)
    requires GetCart(shop, user).result.Ok?
    requires CreateOrder(shop, user, data, payment, number, now).result.Ok?
    ensures var o := CreateOrder(shop, user, data, payment, number, now).result.value;
            && o.subtotal == GetCart(shop, user).result.value.totalAmount
            && o.totalAmount == GetCart(shop, user).result.value.totalAmount * 1.1 + 10.0
  {
  }

  /**
   A one-line cart: two units at 20.00 of a product with five in stock. The
   order comes to 40.00 + 4.00 + 10.00 = 54.00, three units remain and the
   cart is empty.
   */
  lemma CheckoutExample(p: Product, data: map<string, string>, payment: PaymentMethod, number: string, now: Timestamp)
    requires p.stock == 5
    ensures var shop := Shop(map[1 := p], map[], map[7 := [CartLine(100, 1, 2, 20.0)]], map[], 2, 101, 1);
            var r := CreateOrder(shop, 7, data, payment, number, now);
            && r.result.Ok?
            && r.result.value.subtotal == 40.0
            && r.result.value.tax == 4.0
            && r.result.value.shippingCost == 10.0
            && r.result.value.totalAmount == 54.0
            && r.shop.products[1].stock == 3
            && r.shop.carts[7] == []
  {
    var shop := Shop(map[1 := p], map[], map[7 := [CartLine(100, 1, 2, 20.0)]], map[], 2, 101, 1);
    var lines := shop.carts[7];
    assert lines[..0] == [];
    assert Feasible(lines, shop.products);
    assert QuantityOf(lines, 1) == 2;
    assert LinesValue(lines) == 40.0;
  }
}

=== FILE: stock_safety.dfy ===
/**
 Stock safety over whole sequences of requests. As written, adding to a cart
 accepts a negative quantity; checkout then raises stock by that amount and
 cancellation lowers it again, after the raised stock may already have been
 sold. With the quantity required to be positive, no sequence of requests
 can make any stock negative.
 */
module StockSafety {
  import opened Wrappers
  import opened Entities
  import opened CartService
  import opened OrderService
  import opened ProductService
  import opened ShopProperties

  /** The requests that read or write carts, stock, orders and the catalogue's active flag. */
  datatype Request =
    | Get(user: UserId)
    | Add(user: UserId, pid: ProductId, qty: int)
    | Update(user: UserId, itemId: CartItemId, qty: int)
    | Remove(user: UserId, itemId: CartItemId)
    | Clear(user: UserId)
    | Checkout(user: UserId, data: map<string, string>, payment: PaymentMethod, number: string, now: Timestamp)
    | Cancel(user: UserId, orderId: OrderId)
    | SetStatus(orderId: OrderId, status: OrderStatus, now: Timestamp)
    | Delete(pid: ProductId)

  /** The store after one request, served as the program serves it. */
  function StepAsWritten(shop: Shop, req: Request): Shop
  {
    match req
    case Get(u) => GetCart(shop, u).shop
    case Add(u, pid, qty) => AddToCart(shop, u, pid, qty).shop
    case Update(u, itemId, qty) => UpdateCartItem(shop, u, itemId, qty).shop
    case Remove(u, itemId) => RemoveFromCart(shop, u, itemId).shop
    case Clear(u) => ClearCart(shop, u).shop
    case Checkout(u, data, payment, number, now) => CreateOrder(shop, u, data, payment, number, now).shop
    case Cancel(u, id) => CancelOrder(shop, u, id).shop
    case SetStatus(id, status, now) => UpdateOrderStatus(shop, id, status, now).shop
    case Delete(pid) => DeleteProduct(shop, pid).shop
  }

  /** The store after one request, with adding refusing quantities of zero or less. */
  function Step(shop: Shop, req: Request): Shop
  {
    match req
    case Add(u, pid, qty) => AddToCartChecked(shop, u, pid, qty).shop
    case _ => StepAsWritten(shop, req)
  }

  /** The corrected step differs from the program's only by ignoring an add of zero or less. */
  lemma StepDiffersOnlyOnNonPositiveAdds(shop: Shop, req: Request)
    ensures req.Add? && req.qty <= 0 ==> Step(shop, req) == shop
    ensures !(req.Add? && req.qty <= 0) ==> Step(shop, req) == StepAsWritten(shop, req)
  {
  }

  /** The store after a sequence of requests, served one after another as the program serves them. */
  function RunAsWritten(shop: Shop, reqs: seq<Request>): Shop
    decreases |reqs|
  {
    if reqs == [] then shop else RunAsWritten(StepAsWritten(shop, reqs[0]), reqs[1..])
  }

  /** The store after a sequence of requests, served one after another with the corrected add. */
  function Run(shop: Shop, reqs: seq<Request>): Shop
    decreases |reqs|
  {
    if reqs == [] then shop else Run(Step(shop, reqs[0]), reqs[1..])
  }

  /** No stock is negative, and every cart line and order item holds a positive quantity. */
  ghost predicate StockSafe(shop: Shop)
  {
    && (forall pid :: pid in shop.products ==> shop.products[pid].stock >= 0)
    && (forall u, i :: u in shop.carts && 0 <= i < |shop.carts[u]| ==> shop.carts[u][i].quantity > 0)
    && (forall id, i :: id in shop.orders && 0 <= i < |shop.orders[id].items| ==>
          shop.orders[id].items[i].quantity > 0)
  }

  lemma {:induction false} PositiveItemsAddUp(items: seq<OrderItem>, pid: ProductId)
    requires forall i :: 0 <= i < |items| ==> items[i].quantity > 0
    ensures ItemQuantityOf(items, pid) >= 0
  {
    if items != [] {
      PositiveItemsAddUp(items[1..], pid);
    }
  }

  lemma AddKeepsSafe(shop: Shop, u: UserId, pid: ProductId, qty: int)
    requires StockSafe(shop)
    ensures StockSafe(AddToCartChecked(shop, u, pid, qty).shop)
  {
    var r := AddToCartChecked(shop, u, pid, qty);
    if r.result.Ok? {
      var before, after := LinesOf(shop, u), r.shop.carts[u];
      forall i | 0 <= i < |after|
        ensures after[i].quantity > 0
      {
        if i < |before| {
          assert before[i].quantity > 0;
        }
      }
    }
  }

  lemma UpdateKeepsSafe(shop: Shop, u: UserId, itemId: CartItemId, qty: int)
    requires StockSafe(shop)
    ensures StockSafe(UpdateCartItem(shop, u, itemId, qty).shop)
  {
    var r := UpdateCartItem(shop, u, itemId, qty);
    if r.result.Ok? {
      var before, k := shop.carts[u], FindById(shop.carts[u], itemId).value;
      var after := r.shop.carts[u];
      forall i | 0 <= i < |after|
        ensures after[i].quantity > 0
      {
        if qty <= 0 {
          if i < k {
            assert after[i] == before[i];
          } else {
            assert after[i] == before[i + 1];
          }
        }
      }
    }
  }

  lemma RemoveKeepsSafe(shop: Shop, u: UserId, itemId: CartItemId)
    requires StockSafe(shop)
    ensures StockSafe(RemoveFromCart(shop, u, itemId).shop)
  {
    var r := RemoveFromCart(shop, u, itemId);
    if r.result.Ok? {
      var before, after := shop.carts[u], r.shop.carts[u];
      forall i | 0 <= i < |after|
        ensures after[i].quantity > 0
      {
        assert after[i] in before;
      }
    }
  }

  lemma CheckoutKeepsSafe(
    shop: Shop, u: UserId, data: map<string, string>, payment: PaymentMethod, number: string, now: Timestamp)
    requires StockSafe(shop)
    ensures StockSafe(CreateOrder(shop, u, data, payment, number, now).shop)
  {
    var r := CreateOrder(shop, u, data, payment, number, now);
    if r.result.Ok? {
      var lines := shop.carts[u];
      var items := r.result.value.items;
      assert items == ItemsOf(lines);
      forall i | 0 <= i < |items|
        ensures items[i].quantity > 0
      {
        assert items[i].quantity == lines[i].quantity;
      }
    }
  }

  lemma CancelKeepsSafe(shop: Shop, u: UserId, id: OrderId)
    requires StockSafe(shop)
    ensures StockSafe(CancelOrder(shop, u, id).shop)
  {
    var r := CancelOrder(shop, u, id);
    if r.result.Ok? {
      var items := shop.orders[id].items;
      forall pid | pid in shop.products
        ensures r.shop.products[pid].stock >= 0
      {
        PositiveItemsAddUp(items, pid);
      }
      assert r.shop.orders[id].items == items;
    }
  }

  lemma SetStatusKeepsSafe(shop: Shop, id: OrderId, status: OrderStatus, now: Timestamp)
    requires StockSafe(shop)
    ensures StockSafe(UpdateOrderStatus(shop, id, status, now).shop)
  {
    var r := UpdateOrderStatus(shop, id, status, now);
    if r.result.Ok? {
      assert r.shop.orders[id].items == shop.orders[id].items;
    }
  }

  /** With positive quantities enforced, every single request keeps the store stock-safe. */
  lemma StepKeepsSafe(shop: Shop, req: Request)
    requires StockSafe(shop)
    ensures StockSafe(Step(shop, req))
  {
    match req
    case Get(u) =>
    case Add(u, pid, qty) => AddKeepsSafe(shop, u, pid, qty);
    case Update(u, itemId, qty) => UpdateKeepsSafe(shop, u, itemId, qty);
    case Remove(u, itemId) => RemoveKeepsSafe(shop, u, itemId);
    case Clear(u) =>
    case Checkout(u, data, payment, number, now) => CheckoutKeepsSafe(shop, u, data, payment, number, now);
    case Cancel(u, id) => CancelKeepsSafe(shop, u, id);
    case SetStatus(id, status, now) => SetStatusKeepsSafe(shop, id, status, now);
    case Delete(pid) =>
  }

  /** With positive quantities enforced, no sequence of requests makes any stock negative. */
  lemma {:induction false} RunKeepsSafe(shop: Shop, reqs: seq<Request>)
    requires StockSafe(shop)
    ensures StockSafe(Run(shop, reqs))
    ensures forall pid :: pid in Run(shop, reqs).products ==> Run(shop, reqs).products[pid].stock >= 0
    decreases |reqs|
  {
    if reqs != [] {
      StepKeepsSafe(shop, reqs[0]);
      RunKeepsSafe(Step(shop, reqs[0]), reqs[1..]);
    }
  }

  /** Adding a stored product to an empty cart, when the stock check passes, gives the cart one new line. */
  lemma AddToEmptyCart(s: Shop, u: UserId, pid: ProductId, qty: int)
    requires CartsResolve(s)
    requires pid in s.products && qty <= s.products[pid].stock
    requires u in s.carts && s.carts[u] == []
    ensures AddToCart(s, u, pid, qty).shop
            == s.(carts := s.carts[u := [CartLine(s.nextCartItemId, pid, qty, UnitPrice(s.products[pid]))]],
                  nextCartItemId := s.nextCartItemId + 1)
  {
    AddToCartKeepsReferences(s, u, pid, qty);
    assert LinesOf(s, u) == [];
    assert FindByProduct([], pid).None?;
    var line := CartLine(s.nextCartItemId, pid, qty, UnitPrice(s.products[pid]));
    assert [] + [line] == [line];
  }

  /** Checking out a one-line cart whose stock suffices takes that line's quantity from its product. */
  lemma CheckoutOneLine(
    s: Shop, u: UserId, a: map<string, string>, payment: PaymentMethod, number: string, now: Timestamp)
    requires u in s.carts && |s.carts[u]| == 1
    requires s.carts[u][0].productId in s.products
    requires s.carts[u][0].quantity <= s.products[s.carts[u][0].productId].stock
    ensures var r, l := CreateOrder(s, u, a, payment, number, now), s.carts[u][0];
            && r.result.Ok?
            && r.shop.products.Keys == s.products.Keys
            && r.shop.products[l.productId].stock == s.products[l.productId].stock - l.quantity
            && r.shop.carts == s.carts[u := []]
            && r.shop.orders == s.orders[s.nextOrderId := r.result.value]
            && r.shop.nextOrderId == s.nextOrderId + 1
            && r.result.value.items == [ItemOf(l)]
            && r.result.value.owner == u
            && r.result.value.status == Pending
  {
    var lines := s.carts[u];
    var l := lines[0];
    assert lines[..0] == [];
    assert Feasible(lines, s.products);
    assert lines == [l];
    assert QuantityOf(lines, l.productId) == l.quantity;
    assert ItemsOf(lines) == [ItemOf(l)];
  }

  /**
   `after` is `before` once `qty` units of `pid` have gone from an empty cart
   of `u` into one new pending order of `u`: the stock has dropped by `qty`,
   the cart is empty again and every earlier order is as it was.
   */
  ghost predicate MovedIntoOrder(before: Shop, after: Shop, u: UserId, pid: ProductId, qty: int)
  {
    && pid in before.products && pid in after.products
    && after.products[pid].stock == before.products[pid].stock - qty
    && CartsResolve(after)
    && u in after.carts && after.carts[u] == []
    && after.nextOrderId == before.nextOrderId + 1
    && after.orders.Keys == before.orders.Keys + {before.nextOrderId}
    && (forall id :: id in before.orders && id != before.nextOrderId ==> after.orders[id] == before.orders[id])
    && var o := after.orders[before.nextOrderId];
    && o.owner == u && o.status == Pending
    && o.items == [ItemOf(CartLine(before.nextCartItemId, pid, qty, UnitPrice(before.products[pid])))]
  }

  /** Checking out the one line just added to an empty cart moves its quantity into a new order. */
  lemma CheckoutMoves(
    s: Shop, s1: Shop, u: UserId, pid: ProductId, qty: int, a: map<string, string>, number: string, now: Timestamp)
    requires CartsResolve(s)
    requires pid in s.products && qty <= s.products[pid].stock
    requires u in s.carts && s.carts[u] == []
    requires s1 == s.(carts := s.carts[u := [CartLine(s.nextCartItemId, pid, qty, UnitPrice(s.products[pid]))]],
                      nextCartItemId := s.nextCartItemId + 1)
    ensures MovedIntoOrder(s, CreateOrder(s1, u, a, CashOnDelivery, number, now).shop, u, pid, qty)
  {
    var line := CartLine(s.nextCartItemId, pid, qty, UnitPrice(s.products[pid]));
    CheckoutOneLine(s1, u, a, CashOnDelivery, number, now);
    var s2 := CreateOrder(s1, u, a, CashOnDelivery, number, now).shop;
    assert s2.carts == s.carts[u := [line]][u := []];
    assert s2.carts == s.carts;
  }

  /**
   Adding `qty` units to an empty cart and checking it out moves exactly
   `qty` units of stock into one new order, whatever the sign of `qty`.
   */
  lemma AddThenCheckout(
    s: Shop, u: UserId, pid: ProductId, qty: int, a: map<string, string>, number: string, now: Timestamp)
    requires CartsResolve(s)
    requires pid in s.products && qty <= s.products[pid].stock
    requires u in s.carts && s.carts[u] == []
    ensures MovedIntoOrder(s, CreateOrder(AddToCart(s, u, pid, qty).shop, u, a, CashOnDelivery, number, now).shop, u, pid, qty)
  {
    AddToEmptyCart(s, u, pid, qty);
    CheckoutMoves(s, AddToCart(s, u, pid, qty).shop, u, pid, qty, a, number, now);
  }

  /**
   After an order of -5 units and then one of 5 units of a product that had
   no stock, cancelling the first order leaves that product at -5.
   */
  lemma CancelAfterTwoCheckouts(s: Shop, s2: Shop, s4: Shop, u: UserId, pid: ProductId)
    requires s.nextOrderId !in s.orders
    requires pid in s.products && s.products[pid].stock == 0
    requires MovedIntoOrder(s, s2, u, pid, -5) && MovedIntoOrder(s2, s4, u, pid, 5)
    ensures s2.products[pid].stock == 5 && s4.products[pid].stock == 0
    ensures CancelOrder(s4, u, s.nextOrderId).result.Ok?
    ensures CancelOrder(s4, u, s.nextOrderId).shop.products[pid].stock == -5
  {
    var first := s4.orders[s.nextOrderId];
    assert first == s2.orders[s.nextOrderId];
    assert ItemQuantityOf(first.items, pid) == -5;
  }

  /**
   As written, five requests by the owner `u` of an empty cart leave a
   product that had no stock at -5: add -5 (accepted, since 0 < -5 is false),
   check out (stock rises to 5), add 5 and check out (stock back to 0), then
   cancel the first order (stock falls to -5).
   */
  lemma NegativeQuantityDrivesStockNegative(
    s: Shop, u: UserId, pid: ProductId, a: map<string, string>, now: Timestamp)
    requires CartsResolve(s)
    requires pid in s.products && s.products[pid].stock == 0
    requires u in s.carts && s.carts[u] == []
    requires s.nextOrderId !in s.orders
    ensures var s2 := CreateOrder(AddToCart(s, u, pid, -5).shop, u, a, CashOnDelivery, "A", now).shop;
            var s4 := CreateOrder(AddToCart(s2, u, pid, 5).shop, u, a, CashOnDelivery, "B", now).shop;
            var cancelled := CancelOrder(s4, u, s.nextOrderId);
            && pid in s2.products && s2.products[pid].stock == 5
            && pid in s4.products && s4.products[pid].stock == 0
            && cancelled.result.Ok?
            && pid in cancelled.shop.products
            && cancelled.shop.products[pid].stock == -5
  {
    AddThenCheckout(s, u, pid, -5, a, "A", now);
    var s2 := CreateOrder(AddToCart(s, u, pid, -5).shop, u, a, CashOnDelivery, "A", now).shop;
    AddThenCheckout(s2, u, pid, 5, a, "B", now);
    var s4 := CreateOrder(AddToCart(s2, u, pid, 5).shop, u, a, CashOnDelivery, "B", now).shop;
    CancelAfterTwoCheckouts(s, s2, s4, u, pid);
  }

  /** The smallest store that shows it: one product without stock, one empty cart, no orders. */
  lemma NegativeStockExample(p: Product, a: map<string, string>, now: Timestamp)
    requires p.stock == 0
    ensures var shop := Shop(map[1 := p], map[], map[7 := []], map[], 2, 0, 0);
            var s2 := CreateOrder(AddToCart(shop, 7, 1, -5).shop, 7, a, CashOnDelivery, "A", now).shop;
            var s4 := CreateOrder(AddToCart(s2, 7, 1, 5).shop, 7, a, CashOnDelivery, "B", now).shop;
            && 1 in CancelOrder(s4, 7, 0).shop.products
            && CancelOrder(s4, 7, 0).shop.products[1].stock == -5
  {
    var shop := Shop(map[1 := p], map[], map[7 := []], map[], 2, 0, 0);
    assert CartsResolve(shop);
    NegativeQuantityDrivesStockNegative(shop, 7, 1, a, now);
  }
}

=== FILE: wrappers.dfy ===
/** Failure-compatible wrappers used by every service of the model. */
module Wrappers {

  /** A value that may be absent: the model's stand-in for a nullable reference. */
  datatype Option<+T> = None | Some(value: T)

  /** The outcome of a service call: a value, or the error the service throws. */
  datatype Result<+T, +E> = Ok(value: T) | Err(error: E)
}
